=== FILE: README.md ===
# prisma-extension-cache-manager, modelled in Dafny

This project models the core of the Prisma client extension `prisma-extension-cache-manager`.
The extension caches the results of Prisma model queries and raw SQL queries in a
key-value store (a `cache-manager` cache). It also invalidates stored entries: on request
through an `uncache` directive, or automatically after writes.

The model covers:

- the operation tables (`src/types.ts`);
- key construction: `generateComposedKey` and `createKey` (`src/methods.ts`);
- the value codec: `serializeData` / `deserializeData`, with their sentinel prefixes for
  Decimal, BigInt, Buffer and Date values, and the key sorting that `safe-stable-stringify`
  performs;
- the relation walk `getInvolvedModels`;
- the `$allOperations` hook, which decides per call whether to pass through, answer from the
  store, or execute, invalidate and store;
- the `$queryRawCached` and `$queryRawUnsafeCached` client methods.

Modules, one file each:

- `Wrappers`: `Option`, `Result`, and the thrown errors.
- `Strings`: prefix and infix search, first index, lexicographic order, join.
- `Numerals`: decimal text of integers, and the `BigInt()` parse of such text.
- `Values`: the JavaScript value tree, `for…in` keys, property reads.
- `Operations`: the operation tables.
- `Keys`: composed keys and `createKey`.
- `Codec`: the serialisation envelope and its reviver.
- `RelationWalk`: `getInvolvedModels` over a schema description.
- `Directives`: the `cache` and `uncache` argument shapes and their classification.
- `Engine`: the `$allOperations` hook.
- `RawQueries`: the raw SQL methods.

Modelling choices:

- **External effects become parameters.** The underlying Prisma query is a function
  argument from the arguments it receives to a result or a failure. So are the MD5 hash of
  a JSON text and of a raw SQL string (`Keys.Hasher`).
- **The store is one map** from keys to entries. An entry holds the envelope tree that
  `serializeData` writes, plus the TTL it was written with. A present key is a hit: the
  stored text is never empty, so `if (cached)` is true exactly when the key is present.
- **The codec works on value trees, not JSON text.** The stringifier sorts object keys,
  and `Codec.SortKeys` models that. The round trip is therefore
  `Deserialize(Serialize(v)) == Returned(SortKeys(v))`: the value comes back with its
  object keys sorted. It is `v` itself when the keys are already sorted.
- **The relation walk gets the operation name, not the arguments.** At its call site
  (`src/index.ts:228`) `getInvolvedModels` is called with four arguments, while it declares
  three. Its `args` parameter therefore receives the operation name. A string has no
  `data` property, so auto-uncache only ever drops the keys tagged with the written model
  (`RelationWalk.ShiftedCallInvolvesOnlyModel`, `Engine.Execute`).
  - The model follows the code here.
  - `test/main.test.ts:427-455` expects a nested write to also drop a related model's
    entries. `Engine.NestedWriteKeepsRelatedEntries` shows that this entry survives under
    the code as written. It also shows that the walk over the actual arguments would have
    named the related model.
- **Type prefixes are fixed.** The options declare configurable `typePrefixes`
  (`src/types.ts:138-143`), and `src/index.ts` passes them to `serializeData` and
  `deserializeData` (for example at `src/index.ts:96` and `src/index.ts:111`). Both functions
  take a single argument (`src/methods.ts:26`, `src/methods.ts:43`) and use the four fixed
  prefixes, so the model uses the fixed prefixes too.

## Model

| member | source | states |
|---|---|---|
| Operations.ReadWritePartition | src/types.ts:5-42 | The intercepted operations are exactly the read operations plus the write operations, and no operation is both. |
| Operations.ArgsPartition | src/types.ts:44-63 | The intercepted operations are exactly those with required arguments plus those with optional arguments, and no operation is in both tables. |
| Operations.TableSizes | src/types.ts:5-63 | The tables hold 15, 8, 7, 10 and 5 distinct operations. |
| Numerals.ParseBigInt | src/methods.ts:50-51 | `BigInt()` of the text after the bigint prefix: all-digit text parses to a non-negative integer, a negative result comes only from a leading `-`, and every failure is a SyntaxError. |
| Numerals.ParseIntText | src/methods.ts:29 | Parsing the decimal text `toString()` writes for any integer gives that integer back. |
| Numerals.NatTextInjective | src/methods.ts:29 | Two naturals have the same decimal text exactly when they are equal. |
| Values.IndexKeysDistinct | src/methods.ts:74 | The index keys `for…in` enumerates over an array or a string never repeat. |
| Values.GetProperty | src/methods.ts:55 | Reading a property throws a TypeError exactly on `null`; otherwise it yields the member, or `undefined`. |
| Values.Member | src/methods.ts:73-75 | A property read yields a strictly smaller value. On an object it yields the value of a field with that name, and it yields a value whenever such a field exists. On an array it yields the element whose index text is the key, and `undefined` when no index has that text. Values other than objects and arrays yield `undefined`. |
| Values.ForInKeys | src/methods.ts:63 | `for…in` enumerates an object's field names in order, one index per array element, and nothing for primitives other than strings. |
| Keys.GenerateComposedKey | src/methods.ts:6-20 | The key starts with the namespace (or nothing) and a colon, and contains `:model:`. With plain segments it splits back into namespace, model, operation and the hash of the arguments' JSON form. |
| Keys.ComposedKeyInjective | src/methods.ts:19 | Two composed keys with plain segments are equal only if namespace text, model, operation and hash all agree. |
| Keys.ComposedKeysEqualIff | src/methods.ts:12-19 | Two generated keys with plain segments coincide exactly when namespace text, model and operation agree and the argument hashes agree. |
| Keys.BigIntKeyedAsText | src/methods.ts:14-16 | An argument object with a BigInt field, at any position, gets the same key as the same object with the BigInt's decimal text in that field. |
| Keys.JsonForm | src/methods.ts:14-16 | The JSON form replaces a BigInt by its decimal string and keeps array and object shapes. |
| Keys.BufferKeyedByBytes | src/methods.ts:14-16 | A Buffer is hashed as `{type: "Buffer", data: [bytes]}`, so it does not share its JSON form with an object that carries the same text as `data`. |
| Keys.TagMatchesOnlyOwnModel | src/index.ts:235 | For a composed key with plain segments and a colon-free hash, `key.includes(":m:")` holds exactly when `m` is the key's model. |
| Keys.CreateKey | src/methods.ts:22-24 | `createKey` joins the present, non-empty namespace and key with one colon. It gives just the one present part, or the empty string. |
| Strings.NonEmpty | src/methods.ts:23 | The `filter(e => !!e)` step yields only non-empty parts of the input, keeps every non-empty one, and is the identity when no part is empty. |
| Strings.NonEmptyAppend | src/methods.ts:23 | The filter keeps order and repetitions: filtering `a + b` gives the filtered `a` followed by the filtered `b`. |
| Codec.PrefixesExclusive | src/methods.ts:46-53 | No string starts with two of the four sentinel prefixes, so the reviver's branch order does not matter. |
| Codec.Encode | src/methods.ts:27-39 | The encoded tree is JSON-native. Decimal, BigInt, Buffer and Date become their prefixed strings, primitives are unchanged, and arrays and objects keep their lengths. |
| Codec.EncodeFields | src/methods.ts:34-37 | Encoding an object keeps its field names, in order, with JSON-native values. |
| Codec.SortFields | src/methods.ts:40 | Key sorting is a permutation of the object's fields, and the result is in name order. |
| Codec.Serialize | src/methods.ts:40 | The serialised envelope is JSON-native. |
| Codec.ReviveString | src/methods.ts:46-54 | A string with a sentinel prefix revives to the matching class applied to the rest of the string. The BigInt branch fails when the rest is malformed. Any other string is kept. |
| Codec.Revive | src/methods.ts:44-55 | A string goes through the reviver's prefix rules. Other leaves pass through unchanged. An array or object is revived element by element: same length, same field names, each element the revival of the original. It fails exactly when some element's revival fails. |
| Codec.Deserialize | src/methods.ts:43-56 | Deserialising throws exactly on a null envelope or a failed revival. Otherwise it returns the `data` property of the revived envelope, or `undefined` when there is none. |
| Codec.ReviveEncode | src/methods.ts:26-56 | Reviving the encoding of any tree without sentinel-looking strings gives the tree back. |
| Codec.SortKeysEncode | src/methods.ts:40 | Key sorting commutes with the encoder. |
| Codec.RoundTrip | src/methods.ts:26-56 | `deserializeData(serializeData(v))` is `v` with its object keys sorted, for every `v` without sentinel-looking strings. |
| Codec.RoundTripSorted | src/methods.ts:26-56 | When every object's keys are already sorted, the round trip is the identity. |
| Codec.SortKeysIdentity | src/methods.ts:40 | Sorting a tree whose keys are already sorted changes nothing. |
| Codec.SortKeysSorted | src/methods.ts:40 | After key sorting, every object at every depth has its keys in name order. |
| Codec.SortKeysIdempotent | src/methods.ts:40 | Sorting keys twice gives the same tree as sorting them once. |
| Codec.SentinelStringMisread | src/methods.ts:52-53 | A plain string that starts with the date prefix comes back as a Date: the codec does not escape sentinel prefixes. |
| RelationWalk.InvolvedModels | src/methods.ts:59-84 | The walk reports the root model first, without repetitions. Every other entry comes from a relation field named in `args.data`: it is that field's related model, or a model reachable from it through relation fields. Every relation field named in `args.data` contributes its related model. When `args.data` is empty or names no relation field, only the root is reported. Failures are TypeErrors. |
| RelationWalk.WalkFields | src/methods.ts:63-81 | Each reported model comes from one of the relation keys: it is that key's related model, or is reachable from it through relation fields. Every relation key contributes its related model. Keys that name no relation field contribute nothing. |
| RelationWalk.FieldModels | src/methods.ts:64-79 | A non-relation key contributes nothing. A relation key contributes its related model first, and then only models reachable from it. |
| RelationWalk.WalkSkipsPlainKey | src/methods.ts:64 | Removing a key that names no relation field, at any position, leaves the walk's result unchanged. |
| RelationWalk.Dedup | src/methods.ts:83 | `[...new Set(s)]` has no repetitions, the same elements as `s`, and the same first element. |
| RelationWalk.ShiftedCallInvolvesOnlyModel | src/index.ts:228 | Called with the operation name in place of the arguments, the walk reports only the model itself. |
| RelationWalk.NestedCreateWalk | src/methods.ts:59-84 | On a user update that creates posts under `data.posts`, the walk over the arguments reports `User` and `Post`. |
| Directives.UseCache | src/index.ts:245-250 | Caching is on exactly for `true`, a number, a string, an options object, or `null`. |
| Directives.UseUncache | src/index.ts:251-255 | Uncaching is on exactly for a function, a string or an array. |
| Directives.ResolveTtl | src/index.ts:256-261 | The TTL is a number directive itself, else an options object's `ttl` when present (0 included), else the default. |
| Directives.KeysToDelete | src/index.ts:204-221 | A function's result becomes a key list. A string becomes a one-key list. A string array is kept. An object array becomes namespaced keys, element by element. Anything else gives no keys. |
| Directives.RefKeyAgreesWithCreateKey | src/index.ts:217-219 | The uncache spelling of a namespaced key equals `createKey`'s exactly when the key is non-empty or there is no namespace. |
| Engine.DeleteKeys | src/index.ts:33-36 | `safeDelete` removes exactly the listed keys and leaves every other entry unchanged. |
| Engine.AutoUncache | src/index.ts:226-243 | The auto-uncache scan removes exactly the stored keys that contain `:m:` for an involved model `m`, and leaves every other entry unchanged. |
| Engine.Execute | src/index.ts:263-274 | After the query, the store has lost exactly the keys that the `uncache` directive names for the result, plus (for a write under auto-uncache) those tagged with the written model. Nothing is added or changed. A failed query leaves the store alone. |
| Engine.ExecuteAndStore | src/index.ts:303-320 | After a miss, the result is returned, the evicted keys and only those are gone, and the envelope is stored last under the call's key with the given TTL. A failed query leaves the store alone. |
| Engine.OwnKeySurvivesUncache | src/index.ts:298-319 | A model call whose `uncache` names its own literal key still holds that key afterwards, because the deletion comes before the store. |
| Engine.PlanKey | src/index.ts:271-296 | The cache key is the key function's value on the result, a string directive itself, `createKey` of a non-empty key and the namespace, or else the composed key of model, operation, namespace and stripped arguments. |
| Engine.TtlNeverAffectsKey | src/index.ts:271-296 | The TTL never enters the key. Options that differ only in `ttl` plan the same key, and a number directive, or options holding only a `ttl`, plan the same key as `true`. |
| Engine.AllOperations | src/index.ts:190-321 | Covers the whole hook. Other operations pass through. A `null` directive throws a TypeError before the query. Writes always execute. A read whose key is present is answered from the store, which stays unchanged. Otherwise the result is returned, invalidation removes exactly the evicted keys, and the envelope is stored under the call's key with the resolved TTL. |
| Engine.SecondReadHits | src/index.ts:286-319 | A read that missed and stored its result is answered from the store when repeated: no query runs, the store is unchanged, and the answer is the first result with its keys sorted. |
| Engine.WriteEvictsOnlyOwnModel | src/index.ts:226-243 | Under auto-uncache, a write drops a composed key exactly when the key was composed for the written model. |
| Engine.NestedWriteKeepsRelatedEntries | src/index.ts:228 | A nested user update leaves a cached post query in the store, although the walk over its arguments names `Post`. |
| Engine.CacheOptionsKeying | src/index.ts:286-296 | With the same arguments, `true` and `{ttl: 200}` share one key. A literal key and a namespace each select a different key. |
| RawQueries.Uncache | src/index.ts:53-73 | The raw `processUncache` removes exactly the keys the directive names for the result, and keeps every other entry. |
| RawQueries.RawCached | src/index.ts:75-116 | Whatever the `cache` directive, a present key is served unchanged. On a miss, the result is stored with the resolved TTL, and the keys named by `uncache` are absent afterwards, the call's own key included. |
| RawQueries.QueryRawCached | src/index.ts:47-117 | The query runs exactly when the key composed from the SQL strings and values is absent. A hit returns the revived entry. |
| RawQueries.QueryRawUnsafeCached | src/index.ts:118-186 | The query runs exactly when the key composed from the SQL text is absent. A hit returns the revived entry. |
| RawQueries.RawSecondCallHits | src/index.ts:95-116 | A raw query that missed is answered from the store when repeated, unless its `uncache` named its own key. |
| RawQueries.RawIgnoresCacheFlag | src/index.ts:80-114 | A raw query stores its result even under `cache: false`. |
| RawQueries.UncacheOfOwnKey | src/index.ts:107-114 | An `uncache` naming the call's own key leaves a raw query's entry absent. A model call deletes before storing, so it keeps its entry. |
| RawQueries.RawKeysSeparate | src/index.ts:87-93 | The two raw methods never share a key when their hashes are free of `:` and `@`. |

## Left out

- Request deduplication (`useDeduplication` and the shared promise table) is left out. Calls are modelled one at a time, and with one call in flight the shared promise is the query itself.
- The key-function path does not await its `cache.set`. The model applies the store last, in sequence.
- MD5 and `JSON.stringify` are not modelled; they are an uninterpreted `Keys.Hasher`. Only the shape of the hashed value is modelled.
- The JSON text of the envelope is not modelled. Stored entries are value trees.
- JavaScript's own property order (integer-like keys first) is left out: objects keep their fields in written order.
- Inherited (prototype) properties are left out.
- Values.ForInKeys: the rich leaves enumerate nothing, whereas JavaScript's `for…in` enumerates a Buffer's byte indices and a Decimal's own fields (`d`, `e`, `s`). A string enumerates one index per character, whereas JavaScript gives one per UTF-16 code unit (two for a character outside the Basic Multilingual Plane). This affects the relation walk only when `args.data` or a relation's value is such a leaf. Examples: a non-empty Buffer or a Decimal as `data` for an unknown model throws a TypeError in JavaScript, but the model reports just the model name; a NaN Decimal as a relation value throws in JavaScript, but not in the model.
- The UTF-16 code-unit order of the key sort is left out. `Strings.Less` compares characters, which agrees except for characters outside the Basic Multilingual Plane.
- Numerals.ParseBigInt: only the empty text, digits, and `-` followed by digits are accepted. `BigInt()`'s whitespace, `+` sign and hex/octal/binary forms are left out.
- Buffers are represented by their text: `toString()` and `Buffer.from` are treated as inverse, and UTF-8 decoding is left out. A Buffer's bytes, as its JSON form writes them, are the UTF-8 encoding of that text. This is exact for buffers that hold valid UTF-8.
- Values.Member: only the own fields of objects and the elements of arrays are read. A string's index properties (`"ab"["0"]`) and the `length` of strings and arrays read as `undefined` in the model. Every property read in the relation walk is on a value whose `typeof` is `"object"`, or is `data`, which strings and arrays lack.
- Decimal and Date values are represented by their string forms. Their parsing and validation are left out.
- Numbers are integers. Floating point, `NaN` and `undefined` inside results are left out.
- TTL expiry is left out. The TTL an entry was written with is recorded, and no entry expires.
- Store operations never fail in the model. In the extension, a rejected `cache.get`, `cache.set` or `store.delete` propagates to the caller (`src/index.ts:33-36`, and the awaits at `src/index.ts:95`, `109`, `164`, `178`, `299` and `315`). The store is a total map, so those failure paths are left out.
- The store is a single store with an iterator. Multi-store caches, and stores without an iterator (which auto-uncache skips), are left out.
- A `getInvolvedModels` failure inside auto-uncache is left out. At its only call site it cannot fail (`RelationWalk.ShiftedCallInvolvesOnlyModel`).
- `uncache` functions and key functions are total. A thrown exception inside them is left out.
- The factory's check that a supplied Prisma namespace has `defineExtension` is left out. So are the `$cache` client property, `$transaction` handling and the extension registration.
- Typed arrays and configurable type prefixes are left out: the code implements neither.

=== FILE: codec.dfy ===
/**
 * The storage codec (`serializeData` / `deserializeData` of `src/methods.ts`).
 * Rich leaves become sentinel strings `<prefix><text>`; the reviver turns them back.
 * The envelope `{data: ...}` is kept as the tree its JSON text denotes; the text
 * itself is written by safe-stable-stringify, which sorts the keys of every object,
 * so the tree stored here has sorted keys (`SortKeys`).
 */
module Codec {

  import opened Wrappers
  import opened Strings
  import opened Numerals
  import opened Values

  const DecimalPrefix: string := "___decimal_"
  const BigIntPrefix: string := "___bigint_"
  const BufferPrefix: string := "___buffer_"
  const DatePrefix: string := "___date_"

  /** A string the reviver would rewrite. */
  predicate IsSentinel(s: string) {
    StartsWith(s, DecimalPrefix) || StartsWith(s, BigIntPrefix)
    || StartsWith(s, BufferPrefix) || StartsWith(s, DatePrefix)
  }

  /** Every leaf (a node that is neither an array nor an object) satisfies `p`. */
  predicate EveryLeaf(v: Value, p: Value -> bool) {
    match v
    case Arr(items) => forall x :: x in items ==> EveryLeaf(x, p)
    case Obj(fs) => forall f :: f in fs ==> EveryLeaf(f.value, p)
    case _ => p(v)
  }

  predicate PlainLeaf(v: Value) {
    !(v.Str? && IsSentinel(v.s))
  }

  predicate JsonLeaf(v: Value) {
    !v.Decimal? && !v.BigInt? && !v.Buffer? && !v.Date?
  }

  /** A tree whose plain string leaves the reviver leaves alone. */
  predicate NoSentinel(v: Value) {
    EveryLeaf(v, PlainLeaf)
  }

  /** A JSON-native tree: no Decimal, bigint, Buffer or Date leaf. */
  predicate JsonNative(v: Value) {
    EveryLeaf(v, JsonLeaf)
  }

  /** No string starts with two of the four prefixes: the reviver applies at most one rule. */
  lemma PrefixesExclusive(s: string)
    ensures !(StartsWith(s, DecimalPrefix) && StartsWith(s, BigIntPrefix))
    ensures !(StartsWith(s, DecimalPrefix) && StartsWith(s, BufferPrefix))
    ensures !(StartsWith(s, DecimalPrefix) && StartsWith(s, DatePrefix))
    ensures !(StartsWith(s, BigIntPrefix) && StartsWith(s, BufferPrefix))
    ensures !(StartsWith(s, BigIntPrefix) && StartsWith(s, DatePrefix))
    ensures !(StartsWith(s, BufferPrefix) && StartsWith(s, DatePrefix))
  {
    if StartsWith(s, DecimalPrefix) { assert s[3] == 'd' && s[4] == 'e' && s[5] == 'c'; }
    if StartsWith(s, BigIntPrefix) { assert s[3] == 'b' && s[4] == 'i'; }
    if StartsWith(s, BufferPrefix) { assert s[3] == 'b' && s[4] == 'u'; }
    if StartsWith(s, DatePrefix) { assert s[3] == 'd' && s[4] == 'a'; }
  }

  /** `serializeCustomClasses`: rich leaves to sentinel strings, arrays and objects walked. */
  function Encode(v: Value): (r: Value)
    ensures JsonNative(r)
    ensures v.Decimal? ==> r == Str(DecimalPrefix + v.text)
    ensures v.BigInt? ==> r == Str(BigIntPrefix + IntToText(v.i))
    ensures v.Buffer? ==> r == Str(BufferPrefix + v.text)
    ensures v.Date? ==> r == Str(DatePrefix + v.iso)
    ensures v.Arr? ==> r.Arr? && |r.items| == |v.items|
    ensures v.Obj? ==> r.Obj? && |r.fields| == |v.fields|
                       && forall i :: 0 <= i < |v.fields| ==> r.fields[i].name == v.fields[i].name
    ensures v.Null? || v.Bool? || v.Num? || v.Str? ==> r == v
  {
    match v
    case Decimal(t) => Str(DecimalPrefix + t)
    case BigInt(i) => Str(BigIntPrefix + IntToText(i))
    case Buffer(t) => Str(BufferPrefix + t)
    case Date(iso) => Str(DatePrefix + iso)
    case Arr(items) => Arr(EncodeItems(items))
    case Obj(fs) => Obj(EncodeFields(fs))
    case _ => v
  }

  function EncodeItems(items: seq<Value>): (r: seq<Value>)
    ensures |r| == |items|
    ensures forall x :: x in r ==> JsonNative(x)
  {
    if items == [] then [] else [Encode(items[0])] + EncodeItems(items[1..])
  }

  function EncodeFields(fs: seq<Field>): (r: seq<Field>)
    ensures |r| == |fs|
    ensures forall i :: 0 <= i < |fs| ==> r[i].name == fs[i].name
    ensures forall f :: f in r ==> JsonNative(f.value)
  {
    if fs == [] then [] else [Field(fs[0].name, Encode(fs[0].value))] + EncodeFields(fs[1..])
  }

  /** Fields in name order: no field's name is smaller than its predecessor's. */
  predicate NamesOrdered(fs: seq<Field>) {
    forall i :: 0 <= i < |fs| - 1 ==> !Less(fs[i + 1].name, fs[i].name)
  }

  /** Inserts a field before the first field whose name is not smaller. */
  function InsertField(f: Field, fs: seq<Field>): (r: seq<Field>)
    ensures multiset(r) == multiset(fs) + multiset{f}
    ensures |r| == |fs| + 1 && (r[0] == f || (fs != [] && r[0] == fs[0]))
  {
    if fs == [] then [f]
    else if Less(fs[0].name, f.name) then
      assert fs == [fs[0]] + fs[1..];
      [fs[0]] + InsertField(f, fs[1..])
    else [f] + fs
  }

  /** The key order safe-stable-stringify writes: fields sorted by name. */
  function SortFields(fs: seq<Field>): (r: seq<Field>)
    ensures multiset(r) == multiset(fs)
    ensures NamesOrdered(r)
  {
    if fs == [] then []
    else
      assert fs == [fs[0]] + fs[1..];
      InsertFieldOrdered(fs[0], SortFields(fs[1..]));
      InsertField(fs[0], SortFields(fs[1..]))
  }

  /** Insertion keeps fields in name order. */
  lemma {:induction false} InsertFieldOrdered(f: Field, fs: seq<Field>)
    requires NamesOrdered(fs)
    ensures NamesOrdered(InsertField(f, fs))
    decreases |fs|
  {
    if fs != [] && Less(fs[0].name, f.name) {
      var rest := InsertField(f, fs[1..]);
      OrderedTail(fs);
      InsertFieldOrdered(f, fs[1..]);
      if rest[0] == f {
        LessAsymmetric(fs[0].name, f.name);
      } else {
        assert rest[0] == fs[1];
      }
      OrderedCons(fs[0], rest);
    }
  }

  lemma OrderedTail(fs: seq<Field>)
    requires fs != [] && NamesOrdered(fs)
    ensures NamesOrdered(fs[1..])
  {
    forall i | 0 <= i < |fs[1..]| - 1 ensures !Less(fs[1..][i + 1].name, fs[1..][i].name) {
      assert fs[1..][i] == fs[i + 1] && fs[1..][i + 1] == fs[i + 2];
    }
  }

  lemma OrderedCons(x: Field, fs: seq<Field>)
    requires NamesOrdered(fs) && (fs == [] || !Less(fs[0].name, x.name))
    ensures NamesOrdered([x] + fs)
  {
    var r := [x] + fs;
    forall i | 0 <= i < |r| - 1 ensures !Less(r[i + 1].name, r[i].name) {
      if i > 0 {
        assert r[i] == fs[i - 1] && r[i + 1] == fs[i];
      }
    }
  }

  /** The tree a safe-stable-stringify text denotes: every object's keys sorted. */
  function SortKeys(v: Value): Value {
    match v
    case Arr(items) => Arr(SortKeysItems(items))
    case Obj(fs) => Obj(SortFields(SortKeysFields(fs)))
    case _ => v
  }

  function SortKeysItems(items: seq<Value>): (r: seq<Value>)
    ensures |r| == |items|
  {
    if items == [] then [] else [SortKeys(items[0])] + SortKeysItems(items[1..])
  }

  function SortKeysFields(fs: seq<Field>): (r: seq<Field>)
    ensures |r| == |fs|
  {
    if fs == [] then [] else [Field(fs[0].name, SortKeys(fs[0].value))] + SortKeysFields(fs[1..])
  }

  /** Sorting keys moves fields, never changes a leaf: every leaf property survives it. */
  lemma SortKeysEveryLeaf(v: Value, p: Value -> bool)
    requires EveryLeaf(v, p)
    ensures EveryLeaf(SortKeys(v), p)
    decreases v, 1
  {
    match v
    case Arr(items) => SortKeysItemsEveryLeaf(items, p);
    case Obj(fs) =>
      SortKeysFieldsEveryLeaf(fs, p);
      var gs := SortKeysFields(fs);
      forall f | f in SortFields(gs) ensures EveryLeaf(f.value, p) {
        assert f in multiset(SortFields(gs));
      }
    case _ =>
  }

  lemma SortKeysItemsEveryLeaf(items: seq<Value>, p: Value -> bool)
    requires forall x :: x in items ==> EveryLeaf(x, p)
    ensures forall x :: x in SortKeysItems(items) ==> EveryLeaf(x, p)
    decreases items, 0
  {
    if items != [] {
      SortKeysEveryLeaf(items[0], p);
      SortKeysItemsEveryLeaf(items[1..], p);
    }
  }

  lemma SortKeysFieldsEveryLeaf(fs: seq<Field>, p: Value -> bool)
    requires forall f :: f in fs ==> EveryLeaf(f.value, p)
    ensures forall f :: f in SortKeysFields(fs) ==> EveryLeaf(f.value, p)
    decreases fs, 0
  {
    if fs != [] {
      SortKeysEveryLeaf(fs[0].value, p);
      SortKeysFieldsEveryLeaf(fs[1..], p);
    }
  }

  /** `serializeData(v)`: the stored envelope `{data: <encoded v>}`, keys sorted. */
  function Serialize(v: Value): (r: Value)
    ensures JsonNative(r)
  {
    SortKeysEveryLeaf(Obj([Field("data", Encode(v))]), JsonLeaf);
    SortKeys(Obj([Field("data", Encode(v))]))
  }

  /** The reviver on one string: the first matching prefix (decimal, buffer, bigint, date) is undone. */
  function ReviveString(s: string): (r: Result<Value>)
    ensures !IsSentinel(s) ==> r == Ok(Str(s))
    ensures StartsWith(s, DecimalPrefix) ==> r == Ok(Decimal(s[|DecimalPrefix|..]))
    ensures StartsWith(s, BufferPrefix) ==> r == Ok(Buffer(s[|BufferPrefix|..]))
    ensures StartsWith(s, DatePrefix) ==> r == Ok(Date(s[|DatePrefix|..]))
    ensures StartsWith(s, BigIntPrefix) ==> r == (match ParseBigInt(s[|BigIntPrefix|..])
                                                  case Ok(i) => Ok(BigInt(i))
                                                  case Err(e) => Err(e))
  {
    PrefixesExclusive(s);
    if StartsWith(s, DecimalPrefix) then Ok(Decimal(s[|DecimalPrefix|..]))
    else if StartsWith(s, BufferPrefix) then Ok(Buffer(s[|BufferPrefix|..]))
    else if StartsWith(s, BigIntPrefix) then
      match ParseBigInt(s[|BigIntPrefix|..])
      case Ok(i) => Ok(BigInt(i))
      case Err(e) => Err(e)
    else if StartsWith(s, DatePrefix) then Ok(Date(s[|DatePrefix|..]))
    else Ok(Str(s))
  }

  /** `JSON.parse(text, reviver)` at tree level: every string leaf goes through the reviver. */
  function Revive(v: Value): (r: Result<Value>)
    ensures !v.Str? && !v.Arr? && !v.Obj? ==> r == Ok(v)
    ensures v.Str? ==> r == ReviveString(v.s)
    ensures v.Arr? && r.Ok? ==>
              r.value.Arr? && |r.value.items| == |v.items|
              && forall i :: 0 <= i < |v.items| ==> Revive(v.items[i]) == Ok(r.value.items[i])
    ensures v.Arr? && r.Err? ==> exists i :: 0 <= i < |v.items| && Revive(v.items[i]).Err?
    ensures v.Obj? && r.Ok? ==>
              r.value.Obj? && |r.value.fields| == |v.fields|
              && forall i :: 0 <= i < |v.fields| ==>
                   r.value.fields[i].name == v.fields[i].name && Revive(v.fields[i].value) == Ok(r.value.fields[i].value)
    ensures v.Obj? && r.Err? ==> exists i :: 0 <= i < |v.fields| && Revive(v.fields[i].value).Err?
  {
    match v
    case Str(s) => ReviveString(s)
    case Arr(items) =>
      var rs :- ReviveItems(items);
      Ok(Arr(rs))
    case Obj(fs) =>
      var rs :- ReviveFields(fs);
      Ok(Obj(rs))
    case _ => Ok(v)
  }

  function ReviveItems(items: seq<Value>): (r: Result<seq<Value>>)
    ensures r.Ok? ==> |r.value| == |items| && forall i :: 0 <= i < |items| ==> Revive(items[i]) == Ok(r.value[i])
    ensures r.Err? ==> exists i :: 0 <= i < |items| && Revive(items[i]).Err?
  {
    if items == [] then Ok([])
    else
      var x :- Revive(items[0]);
      var xs :- ReviveItems(items[1..]);
      assert forall i :: 1 <= i < |items| ==> items[i] == items[1..][i - 1];
      Ok([x] + xs)
  }

  function ReviveFields(fs: seq<Field>): (r: Result<seq<Field>>)
    ensures r.Ok? ==> |r.value| == |fs| && forall i :: 0 <= i < |fs| ==>
              r.value[i].name == fs[i].name && Revive(fs[i].value) == Ok(r.value[i].value)
    ensures r.Err? ==> exists i :: 0 <= i < |fs| && Revive(fs[i].value).Err?
  {
    if fs == [] then Ok([])
    else
      var x :- Revive(fs[0].value);
      var xs :- ReviveFields(fs[1..]);
      assert forall i :: 1 <= i < |fs| ==> fs[i] == fs[1..][i - 1];
      Ok([Field(fs[0].name, x)] + xs)
  }

  /** `deserializeData(text)`: revive the parsed envelope, then read its `data` property. */
  function Deserialize(envelope: Value): (r: Outcome)
    ensures r.Threw? <==> envelope.Null? || Revive(envelope).Err?
    ensures r.Returned? ==> Revive(envelope).Ok? && Member(Revive(envelope).value, "data") == Some(r.value)
    ensures r.ReturnedUndefined? ==> Revive(envelope).Ok? && Member(Revive(envelope).value, "data") == None
  {
    match Revive(envelope)
    case Err(e) => Threw(e)
    case Ok(t) =>
      match GetProperty(t, "data")
      case Err(e) => Threw(e)
      case Ok(None) => ReturnedUndefined
      case Ok(Some(d)) => Returned(d)
  }

  /** The reviver undoes the encoder on every tree without sentinel-looking strings. */
  lemma {:induction false} ReviveEncode(v: Value)
    requires NoSentinel(v)
    ensures Revive(Encode(v)) == Ok(v)
    decreases v, 1
  {
    match v
    case Str(s) =>
    case Decimal(t) =>
      assert StartsWith(DecimalPrefix + t, DecimalPrefix) && (DecimalPrefix + t)[|DecimalPrefix|..] == t;
    case BigInt(i) =>
      var text := BigIntPrefix + IntToText(i);
      assert StartsWith(text, BigIntPrefix) && text[|BigIntPrefix|..] == IntToText(i);
      ParseIntText(i);
    case Buffer(t) =>
      assert StartsWith(BufferPrefix + t, BufferPrefix) && (BufferPrefix + t)[|BufferPrefix|..] == t;
    case Date(iso) =>
      assert StartsWith(DatePrefix + iso, DatePrefix) && (DatePrefix + iso)[|DatePrefix|..] == iso;
    case Arr(items) => ReviveEncodeItems(items);
    case Obj(fs) => ReviveEncodeFields(fs);
    case _ =>
  }

  lemma {:induction false} ReviveEncodeItems(items: seq<Value>)
    requires forall x :: x in items ==> NoSentinel(x)
    ensures ReviveItems(EncodeItems(items)) == Ok(items)
    decreases items, 0
  {
    if items != [] {
      ReviveEncode(items[0]);
      ReviveEncodeItems(items[1..]);
      var e := EncodeItems(items);
      assert e[0] == Encode(items[0]) && e[1..] == EncodeItems(items[1..]);
      ReviveItemsCons(e, items[0], items[1..]);
      assert items == [items[0]] + items[1..];
    }
  }

  lemma ReviveItemsCons(e: seq<Value>, x: Value, xs: seq<Value>)
    requires e != [] && Revive(e[0]) == Ok(x) && ReviveItems(e[1..]) == Ok(xs)
    ensures ReviveItems(e) == Ok([x] + xs)
  {
  }

  lemma {:induction false} ReviveEncodeFields(fs: seq<Field>)
    requires forall f :: f in fs ==> NoSentinel(f.value)
    ensures ReviveFields(EncodeFields(fs)) == Ok(fs)
    decreases fs, 0
  {
    if fs != [] {
      ReviveEncode(fs[0].value);
      ReviveEncodeFields(fs[1..]);
      var e := EncodeFields(fs);
      assert e[0] == Field(fs[0].name, Encode(fs[0].value)) && e[1..] == EncodeFields(fs[1..]);
      assert fs == [Field(fs[0].name, fs[0].value)] + fs[1..];
    }
  }

  /** The encoding of one field: what `EncodeFields` does to each element. */
  function EncodeField(f: Field): Field {
    Field(f.name, Encode(f.value))
  }

  lemma EncodeFieldsCons(f: Field, fs: seq<Field>)
    ensures EncodeFields([f] + fs) == [EncodeField(f)] + EncodeFields(fs)
  {
    assert ([f] + fs)[0] == f && ([f] + fs)[1..] == fs;
  }

  /** Sorting compares names only, and encoding keeps names: the two commute. */
  lemma {:induction false} InsertFieldEncode(f: Field, fs: seq<Field>)
    ensures EncodeFields(InsertField(f, fs)) == InsertField(EncodeField(f), EncodeFields(fs))
    decreases fs
  {
    if fs == [] {
      EncodeFieldsCons(f, []);
    } else if Less(fs[0].name, f.name) {
      InsertFieldEncode(f, fs[1..]);
      EncodeFieldsCons(fs[0], InsertField(f, fs[1..]));
    } else {
      EncodeFieldsCons(f, fs);
    }
  }

  lemma {:induction false} SortFieldsEncode(fs: seq<Field>)
    ensures EncodeFields(SortFields(fs)) == SortFields(EncodeFields(fs))
    decreases fs
  {
    if fs != [] {
      SortFieldsEncode(fs[1..]);
      InsertFieldEncode(fs[0], SortFields(fs[1..]));
    }
  }

  /** What is stored is the encoding of the key-sorted value. */
  lemma {:induction false} SortKeysEncode(v: Value)
    ensures SortKeys(Encode(v)) == Encode(SortKeys(v))
    decreases v, 1
  {
    match v
    case Arr(items) => SortKeysEncodeItems(items);
    case Obj(fs) => SortKeysEncodeObj(fs);
    case _ =>
  }

  lemma {:induction false} SortKeysEncodeObj(fs: seq<Field>)
    ensures SortKeys(Encode(Obj(fs))) == Encode(SortKeys(Obj(fs)))
    decreases fs, 1
  {
    var sorted := SortKeysFields(fs);
    var encoded := EncodeFields(fs);
    SortKeysEncodeFields(fs);
    SortFieldsEncode(sorted);
    EncodeObj(fs);
    EncodeObj(SortFields(sorted));
    SortKeysObj(encoded);
    SortKeysObj(fs);
  }

  lemma EncodeObj(fs: seq<Field>)
    ensures Encode(Obj(fs)) == Obj(EncodeFields(fs))
  {
  }

  lemma SortKeysObj(fs: seq<Field>)
    ensures SortKeys(Obj(fs)) == Obj(SortFields(SortKeysFields(fs)))
  {
  }

  lemma {:induction false} SortKeysEncodeItems(items: seq<Value>)
    ensures SortKeysItems(EncodeItems(items)) == EncodeItems(SortKeysItems(items))
    decreases items, 0
  {
    if items != [] {
      SortKeysEncode(items[0]);
      SortKeysEncodeItems(items[1..]);
      var e := EncodeItems(items);
      var k := SortKeysItems(items);
      assert e[0] == Encode(items[0]) && e[1..] == EncodeItems(items[1..]);
      assert k[0] == SortKeys(items[0]) && k[1..] == SortKeysItems(items[1..]);
    }
  }

  lemma {:induction false} SortKeysEncodeFields(fs: seq<Field>)
    ensures SortKeysFields(EncodeFields(fs)) == EncodeFields(SortKeysFields(fs))
    decreases fs, 0
  {
    if fs != [] {
      SortKeysEncode(fs[0].value);
      SortKeysEncodeFields(fs[1..]);
      var e := EncodeFields(fs);
      var k := SortKeysFields(fs);
      assert e[0] == EncodeField(fs[0]) && e[1..] == EncodeFields(fs[1..]);
      assert k[0] == Field(fs[0].name, SortKeys(fs[0].value)) && k[1..] == SortKeysFields(fs[1..]);
    }
  }

  /** The one-key envelope is already in sorted order; only its payload gets sorted. */
  lemma EnvelopeSorted(x: Value)
    ensures SortKeys(Obj([Field("data", x)])) == Obj([Field("data", SortKeys(x))])
  {
    var fs := [Field("data", x)];
    assert fs[1..] == [];
    var gs := SortKeysFields(fs);
    assert gs == [Field("data", SortKeys(x))];
    assert gs[1..] == [];
    assert SortFields(gs) == InsertField(gs[0], SortFields([]));
  }

  lemma ReviveSingleField(name: string, x: Value)
    ensures ReviveFields([Field(name, x)]) == match Revive(x)
                                             case Ok(y) => Ok([Field(name, y)])
                                             case Err(e) => Err(e)
  {
    var fs := [Field(name, x)];
    assert fs[1..] == [];
    assert ReviveFields([]) == Ok([]);
    match Revive(x)
    case Ok(y) => assert [Field(name, y)] + [] == [Field(name, y)];
    case Err(e) =>
  }

  /**
   * `deserializeData(serializeData(v))` gives back `v` with the keys of every object
   * sorted, for every `v` whose plain strings do not start with a sentinel prefix.
   */
  lemma RoundTrip(v: Value)
    requires NoSentinel(v)
    ensures Deserialize(Serialize(v)) == Returned(SortKeys(v))
  {
    SerializeSorts(v);
    SortKeysEveryLeaf(v, PlainLeaf);
    ReadEnvelope(SortKeys(v));
  }

  /** The stored envelope holds the encoding of the key-sorted value. */
  lemma SerializeSorts(v: Value)
    ensures Serialize(v) == Obj([Field("data", Encode(SortKeys(v)))])
  {
    SortKeysEncode(v);
    EnvelopeSorted(Encode(v));
  }

  /** Reading back an envelope that holds an encoding gives the encoded value. */
  lemma ReadEnvelope(w: Value)
    requires NoSentinel(w)
    ensures Deserialize(Obj([Field("data", Encode(w))])) == Returned(w)
  {
    ReviveEncode(w);
    ReviveSingleField("data", Encode(w));
    assert Revive(Obj([Field("data", Encode(w))])) == Ok(Obj([Field("data", w)]));
    assert Member(Obj([Field("data", w)]), "data") == Some(w);
  }

  /** Objects whose keys are already in sorted order, at every depth. */
  predicate KeysSorted(v: Value) {
    match v
    case Arr(items) => forall x :: x in items ==> KeysSorted(x)
    case Obj(fs) =>
      && NamesOrdered(fs)
      && (forall f :: f in fs ==> KeysSorted(f.value))
    case _ => true
  }

  lemma {:induction false} SortKeysIdentity(v: Value)
    requires KeysSorted(v)
    ensures SortKeys(v) == v
    decreases v, 1
  {
    match v
    case Arr(items) => SortKeysItemsIdentity(items);
    case Obj(fs) =>
      SortKeysFieldsIdentity(fs);
      SortFieldsIdentity(fs);
    case _ =>
  }

  lemma {:induction false} SortKeysItemsIdentity(items: seq<Value>)
    requires forall x :: x in items ==> KeysSorted(x)
    ensures SortKeysItems(items) == items
    decreases items, 0
  {
    if items != [] {
      SortKeysIdentity(items[0]);
      SortKeysItemsIdentity(items[1..]);
      assert items == [items[0]] + items[1..];
    }
  }

  lemma {:induction false} SortKeysFieldsIdentity(fs: seq<Field>)
    requires forall f :: f in fs ==> KeysSorted(f.value)
    ensures SortKeysFields(fs) == fs
    decreases fs, 0
  {
    if fs != [] {
      SortKeysIdentity(fs[0].value);
      SortKeysFieldsIdentity(fs[1..]);
      assert fs == [Field(fs[0].name, fs[0].value)] + fs[1..];
    }
  }

  lemma {:induction false} SortFieldsIdentity(fs: seq<Field>)
    requires NamesOrdered(fs)
    ensures SortFields(fs) == fs
    decreases fs
  {
    if fs != [] {
      var rest := fs[1..];
      OrderedTail(fs);
      SortFieldsIdentity(rest);
      if rest != [] {
        assert rest[0] == fs[1];
      }
      InsertFieldFront(fs[0], rest);
      SortFieldsCons(fs);
    }
  }

  /** A field no greater than the first one goes in front. */
  lemma InsertFieldFront(f: Field, fs: seq<Field>)
    requires fs == [] || !Less(fs[0].name, f.name)
    ensures InsertField(f, fs) == [f] + fs
  {
  }

  lemma SortFieldsCons(fs: seq<Field>)
    requires fs != []
    ensures SortFields(fs) == InsertField(fs[0], SortFields(fs[1..]))
    ensures fs == [fs[0]] + fs[1..]
  {
  }

  /** Every object of a key-sorted tree has its keys in order, at every depth. */
  lemma {:induction false} SortKeysSorted(v: Value)
    ensures KeysSorted(SortKeys(v))
    decreases v, 1
  {
    match v
    case Arr(items) => SortKeysItemsSorted(items);
    case Obj(fs) =>
      SortKeysFieldsSorted(fs);
      var gs := SortKeysFields(fs);
      forall f | f in SortFields(gs) ensures KeysSorted(f.value) {
        assert f in multiset(SortFields(gs));
      }
    case _ =>
  }

  lemma {:induction false} SortKeysItemsSorted(items: seq<Value>)
    ensures forall x :: x in SortKeysItems(items) ==> KeysSorted(x)
    decreases items, 0
  {
    if items != [] {
      SortKeysSorted(items[0]);
      SortKeysItemsSorted(items[1..]);
    }
  }

  lemma {:induction false} SortKeysFieldsSorted(fs: seq<Field>)
    ensures forall f :: f in SortKeysFields(fs) ==> KeysSorted(f.value)
    decreases fs, 0
  {
    if fs != [] {
      SortKeysSorted(fs[0].value);
      SortKeysFieldsSorted(fs[1..]);
    }
  }

  /** Sorting keys twice is sorting them once: a stored value reads back unchanged on re-storing. */
  lemma SortKeysIdempotent(v: Value)
    ensures SortKeys(SortKeys(v)) == SortKeys(v)
  {
    SortKeysSorted(v);
    SortKeysIdentity(SortKeys(v));
  }

  /** For values already in the key order the store writes, the round trip is exact. */
  lemma RoundTripSorted(v: Value)
    requires NoSentinel(v) && KeysSorted(v)
    ensures Deserialize(Serialize(v)) == Returned(v)
  {
    RoundTrip(v);
    SortKeysIdentity(v);
  }

  /**
   * A plain string that begins with a sentinel prefix is misread on the way back: it
   * comes back as the rich value the prefix names.
   */
  lemma SentinelStringMisread(t: string)
    ensures Deserialize(Serialize(Str(DatePrefix + t))) == Returned(Date(t))
  {
    var s := DatePrefix + t;
    assert StartsWith(s, DatePrefix) && s[|DatePrefix|..] == t;
    PrefixesExclusive(s);
    EnvelopeSorted(Str(s));
    assert Serialize(Str(s)) == Obj([Field("data", Str(s))]);
    ReviveSingleField("data", Str(s));
  }
}

=== FILE: directives.dfy ===
/**
 * The per-call directives (`PrismaCacheArgs` and `CacheOptions` of `src/types.ts`) as
 * tagged variants, and the way `$allOperations` classifies them (`src/index.ts`).
 */
module Directives {

  import opened Wrappers
  import opened Values
  import opened Keys

  /** `CacheOptions.key`: absent, a literal key, or a function of the result. */
  datatype KeyOption = NoKey | KeyText(text: string) | KeyFunction(derive: Value -> string)

  /** The `cache` argument. */
  datatype CacheDirective =
    | CacheAbsent                  // undefined
    | CacheNull                    // null: typeof "object", but not an options object
    | CacheFlag(on: bool)
    | CacheTtl(seconds: int)
    | CacheKey(literal: string)
    | CacheOptions(key: KeyOption, namespace: Option<string>, ttl: Option<int>)
    | CacheUnrecognized            // a function, bigint or symbol

  /** An element of the object form of `uncache`. */
  datatype KeyRef = KeyRef(key: string, namespace: Option<string>)

  /** What an `uncache` function returns: one key or an array of keys. */
  datatype KeySelection = OneKey(key: string) | KeyList(keys: seq<string>)

  /** The `uncache` argument. */
  datatype UncacheDirective =
    | UncacheAbsent
    | UncacheFunction(derive: Value -> KeySelection)
    | UncacheKey(key: string)
    | UncacheKeyList(keys: seq<string>)
    | UncacheRefs(refs: seq<KeyRef>)
    | UncacheUnrecognized          // a number, boolean or non-array object

  /** `typeof cacheOption` */
  function CacheTypeOf(d: CacheDirective): string {
    match d
    case CacheAbsent => "undefined"
    case CacheNull => "object"
    case CacheFlag(_) => "boolean"
    case CacheTtl(_) => "number"
    case CacheKey(_) => "string"
    case CacheOptions(_, _, _) => "object"
    case CacheUnrecognized => "function"
  }

  /**
   * `useCache`: the directive is defined, of boolean, object, number or string type,
   * and not the literal `false`.
   */
  function UseCache(d: CacheDirective): (r: bool)
    ensures r <==> (d.CacheFlag? && d.on) || d.CacheTtl? || d.CacheKey? || d.CacheOptions? || d.CacheNull?
  {
    !d.CacheAbsent?
    && CacheTypeOf(d) in ["boolean", "object", "number", "string"]
    && !(CacheTypeOf(d) == "boolean" && d.CacheFlag? && !d.on)
  }

  /** `useUncache`: the directive is a function, a string or an array. */
  function UseUncache(d: UncacheDirective): (r: bool)
    ensures r <==> !d.UncacheAbsent? && !d.UncacheUnrecognized?
  {
    !d.UncacheAbsent? && (d.UncacheFunction? || d.UncacheKey? || d.UncacheKeyList? || d.UncacheRefs?)
  }

  /**
   * `cacheTTL`: a number directive is the TTL; an options object's `ttl` unless it is
   * null or undefined (so 0 is kept); otherwise the extension's default. The raw-query
   * variants read `cache?.ttl`, so for them a null directive also falls back to the default.
   */
  function ResolveTtl(d: CacheDirective, defaultTtl: Option<int>): (r: Option<int>)
    ensures d.CacheTtl? ==> r == Some(d.seconds)
    ensures d.CacheOptions? && d.ttl.Some? ==> r == d.ttl
    ensures !d.CacheTtl? && !(d.CacheOptions? && d.ttl.Some?) ==> r == defaultTtl
  {
    if CacheTypeOf(d) == "number" then Some(d.seconds)
    else if CacheTypeOf(d) == "object" then
      if d.CacheOptions? && d.ttl.Some? then d.ttl else defaultTtl
    else defaultTtl
  }

  /** `obj.namespace ? `${obj.namespace}:${obj.key}` : obj.key` */
  function RefKey(ref: KeyRef): string {
    if ref.namespace.Some? && ref.namespace.value != "" then ref.namespace.value + ":" + ref.key
    else ref.key
  }

  /**
   * The uncache form of a namespaced key agrees with `createKey` except for an empty key
   * under a namespace, which the uncache form writes as `ns:` and `createKey` as `ns`.
   */
  lemma RefKeyAgreesWithCreateKey(ref: KeyRef)
    ensures RefKey(ref) == CreateKey(Some(ref.key), ref.namespace)
        <==> ref.key != "" || NamespaceText(ref.namespace) == ""
  {
    if ref.key == "" && NamespaceText(ref.namespace) != "" {
      var ns := ref.namespace.value;
      assert |RefKey(ref)| == |ns| + 1;
      assert CreateKey(Some(ref.key), ref.namespace) == ns;
    }
  }

  /**
   * `keysToDelete` of `processUncache`: a function's result as a list, a string as a
   * one-key list, a string array as is, an object array as namespaced keys.
   */
  function KeysToDelete(d: UncacheDirective, result: Value): (r: seq<string>)
    ensures d.UncacheKey? ==> r == [d.key]
    ensures d.UncacheKeyList? ==> r == d.keys
    ensures d.UncacheRefs? ==> |r| == |d.refs| && forall i :: 0 <= i < |r| ==> r[i] == RefKey(d.refs[i])
    ensures d.UncacheFunction? ==> r == match d.derive(result)
                                        case OneKey(k) => [k]
                                        case KeyList(ks) => ks
    ensures !UseUncache(d) ==> r == []
  {
    match d
    case UncacheFunction(derive) =>
      (match derive(result)
       case KeyList(ks) => ks
       case OneKey(k) => [k])
    case UncacheKey(k) => [k]
    case UncacheKeyList(ks) => ks
    case UncacheRefs(refs) => seq(|refs|, i requires 0 <= i < |refs| => RefKey(refs[i]))
    case _ => []
  }

  /** `k` is deleted by `processUncache` for this result: the directive is in use and names `k`. */
  predicate Dropped(d: UncacheDirective, result: Value, k: string) {
    UseUncache(d) && k in KeysToDelete(d, result)
  }
}

=== FILE: engine.dfy ===
/**
 * The `$allOperations` hook of `src/index.ts`: how one intercepted model call consults,
 * fills and invalidates the cache store around the underlying query.
 *
 * The store is one key-value map; the stored value is the envelope tree that
 * `serializeData` produces (its JSON text is not modelled). The underlying query is a
 * parameter: a function from the arguments it is given to its result or its failure.
 */
module Engine {

  import opened Wrappers
  import opened Strings
  import opened Values
  import opened Keys
  import opened Codec
  import opened RelationWalk
  import opened Directives
  import opened Operations

  /** A stored envelope with the TTL it was written with (`undefined` is the store's own default). */
  datatype Entry = Entry(envelope: Value, ttl: Option<int>)

  type Store = map<string, Entry>

  /** The options of the extension factory that the hook reads. */
  datatype Config = Config(defaultTtl: Option<int>, useAutoUncache: bool, schema: Schema, hasher: Hasher)

  /** A call's argument object: its query fields and the two directives the extension consumes. */
  datatype Args = Args(fields: seq<Field>, cache: CacheDirective, uncache: UncacheDirective)

  /** The underlying data-access call. */
  type Query = Args -> Result<Value>

  /** What a call returns, the store afterwards, and whether the underlying query ran. */
  datatype Reply = Reply(outcome: Outcome, store: Store, executed: bool)

  /** `queryArgs`: the arguments without `cache` and `uncache`. */
  function Stripped(args: Args): Args {
    Args(args.fields, CacheAbsent, UncacheAbsent)
  }

  function Lift(r: Result<Value>): Outcome {
    match r
    case Ok(v) => Returned(v)
    case Err(e) => Threw(e)
  }

  /** `safeDelete(keys)`: delete each key in turn; absent keys are ignored. */
  function DeleteKeys(store: Store, keys: seq<string>): (r: Store)
    ensures forall k :: k in r <==> k in store && k !in keys
    ensures forall k :: k in r ==> r[k] == store[k]
  {
    if keys == [] then store
    else DeleteKeys(store - {keys[0]}, keys[1..])
  }

  /** A key the auto-uncache scan collects: it contains `:m:` for one of the involved models. */
  predicate TaggedFor(key: string, models: seq<string>) {
    exists m :: m in models && Contains(key, ":" + m + ":")
  }

  /** `processAutoUncache`: scan the store's keys and delete every tagged one. */
  function AutoUncache(store: Store, models: seq<string>): (r: Store)
    ensures forall k :: k in r <==> k in store && !TaggedFor(k, models)
    ensures forall k :: k in r ==> r[k] == store[k]
  {
    store - (set k | k in store && TaggedFor(k, models))
  }

  /**
   * Whether the invalidation that follows a successful query removes `key`: it is one of
   * the keys the `uncache` directive names for this result, or, for a write with
   * auto-uncache on, it carries the written model's tag.
   */
  predicate Evicted(cfg: Config, model: string, op: string, uncache: UncacheDirective, result: Value, key: string) {
    Dropped(uncache, result, key)
    || (cfg.useAutoUncache && IsWrite(op) && Contains(key, ":" + model + ":"))
  }

  /** The query's result (or failure) and the store after the invalidation that follows it. */
  datatype Executed = Executed(result: Result<Value>, store: Store)

  /**
   * Run the query on the stripped arguments, then `processUncache`, then, for a write
   * with auto-uncache on, `processAutoUncache`. The relation walk is handed the
   * operation name where the arguments belong, so it reports the written model alone.
   */
  function Execute(cfg: Config, model: string, op: string, args: Args, query: Query, store: Store): (r: Executed)
    ensures r.store.Keys <= store.Keys
    ensures forall k :: k in r.store ==> r.store[k] == store[k]
    ensures query(Stripped(args)).Err? ==> r.result == query(Stripped(args)) && r.store == store
    ensures query(Stripped(args)).Ok? ==>
              r.result == query(Stripped(args)) &&
              forall k :: k in store ==> (k in r.store <==> !Evicted(cfg, model, op, args.uncache, r.result.value, k))
  {
    match query(Stripped(args))
    case Err(e) => Executed(Err(e), store)
    case Ok(v) =>
      var afterUncache := if UseUncache(args.uncache) then DeleteKeys(store, KeysToDelete(args.uncache, v)) else store;
      if cfg.useAutoUncache && IsWrite(op) then
        var models := InvolvedModels(cfg.schema, model, Str(op));
        ShiftedCallInvolvesOnlyModel(cfg.schema, model, op);
        assert forall k :: TaggedFor(k, models.value) <==> Contains(k, ":" + model + ":") by {
          assert models.value == [model];
        }
        Executed(Ok(v), AutoUncache(afterUncache, models.value))
      else
        Executed(Ok(v), afterUncache)
  }

  /** Where the result of a cached call is stored: under a key derived from the result, or a fixed one. */
  datatype KeyPlan = ByResult(derive: Value -> string) | Fixed(key: string)

  /**
   * The cache key of a call whose `cache` directive switches caching on: an options
   * object's key function; a string directive as is; an options object's non-empty key
   * under its namespace; otherwise the key composed from model, operation, namespace
   * and the stripped arguments.
   */
  function PlanKey(cfg: Config, model: string, op: string, args: Args): (r: KeyPlan)
    requires UseCache(args.cache) && !args.cache.CacheNull?
    ensures r.ByResult? <==> args.cache.CacheOptions? && args.cache.key.KeyFunction?
    ensures r.ByResult? ==> forall v :: r.derive(v) == args.cache.key.derive(v)
    ensures args.cache.CacheKey? ==> r == Fixed(args.cache.literal)
    ensures args.cache.CacheOptions? && args.cache.key.KeyText? && args.cache.key.text != "" ==>
              r == Fixed(CreateKey(Some(args.cache.key.text), args.cache.namespace))
    ensures args.cache.CacheFlag? || args.cache.CacheTtl? ==>
              r == Fixed(GenerateComposedKey(cfg.hasher, model, op, None, Obj(args.fields)))
    ensures args.cache.CacheOptions? && (args.cache.key.NoKey? || (args.cache.key.KeyText? && args.cache.key.text == "")) ==>
              r == Fixed(GenerateComposedKey(cfg.hasher, model, op, args.cache.namespace, Obj(args.fields)))
  {
    match args.cache
    case CacheOptions(KeyFunction(derive), _, _) => ByResult(derive)
    case CacheKey(literal) => Fixed(literal)
    case CacheOptions(KeyText(text), namespace, _) =>
      if text != "" then Fixed(CreateKey(Some(text), namespace))
      else Fixed(GenerateComposedKey(cfg.hasher, model, op, namespace, Obj(Stripped(args).fields)))
    case CacheOptions(NoKey, namespace, _) =>
      Fixed(GenerateComposedKey(cfg.hasher, model, op, namespace, Obj(Stripped(args).fields)))
    case _ =>
      Fixed(GenerateComposedKey(cfg.hasher, model, op, None, Obj(Stripped(args).fields)))
  }

  /**
   * The TTL never enters the key: options that differ only in `ttl` plan the same key,
   * and a number directive, or options with nothing but a `ttl`, key like `true`.
   */
  lemma TtlNeverAffectsKey(cfg: Config, model: string, op: string, fields: seq<Field>, uncache: UncacheDirective,
                           key: KeyOption, namespace: Option<string>, t1: Option<int>, t2: Option<int>, seconds: int)
    ensures PlanKey(cfg, model, op, Args(fields, CacheOptions(key, namespace, t1), uncache))
         == PlanKey(cfg, model, op, Args(fields, CacheOptions(key, namespace, t2), uncache))
    ensures PlanKey(cfg, model, op, Args(fields, CacheTtl(seconds), uncache))
         == PlanKey(cfg, model, op, Args(fields, CacheFlag(true), uncache))
    ensures PlanKey(cfg, model, op, Args(fields, CacheOptions(NoKey, None, t1), uncache))
         == PlanKey(cfg, model, op, Args(fields, CacheFlag(true), uncache))
  {
  }

  /** The key a successful call with result `v` writes, if caching is on. */
  function WrittenKey(cfg: Config, model: string, op: string, args: Args, v: Value): Option<string> {
    if !UseCache(args.cache) || args.cache.CacheNull? then None
    else
      match PlanKey(cfg, model, op, args)
      case ByResult(derive) => Some(derive(v))
      case Fixed(key) => Some(key)
  }

  /**
   * The hook's tail after a miss: execute, and on success write the envelope last,
   * under the key `place` gives for the result (none when caching is off).
   */
  function ExecuteAndStore(cfg: Config, model: string, op: string, args: Args, query: Query, store: Store,
                           place: Value -> Option<string>, ttl: Option<int>): (r: Reply)
    ensures r.executed
    ensures query(Stripped(args)).Err? ==> r.outcome == Threw(query(Stripped(args)).error) && r.store == store
    ensures query(Stripped(args)).Ok? ==>
              var v := query(Stripped(args)).value;
              r.outcome == Returned(v)
              && (forall k :: k in r.store ==> k in store || Some(k) == place(v))
              && (forall k :: k in store && Some(k) != place(v) ==> (k in r.store <==> !Evicted(cfg, model, op, args.uncache, v, k)))
              && (forall k :: k in r.store && Some(k) != place(v) ==> r.store[k] == store[k])
              && (place(v).Some? ==> place(v).value in r.store && r.store[place(v).value] == Entry(Serialize(v), ttl))
  {
    var step := Execute(cfg, model, op, args, query, store);
    match step.result
    case Err(e) => Reply(Threw(e), step.store, true)
    case Ok(v) =>
      Reply(Returned(v), Put(step.store, place(v), Entry(Serialize(v), ttl)), true)
  }

  /** `cache.set(key, …)` when there is a key; nothing otherwise. */
  function Put(store: Store, key: Option<string>, e: Entry): (r: Store)
    ensures forall k :: k in r <==> k in store || Some(k) == key
    ensures forall k :: k in r && Some(k) != key ==> r[k] == store[k]
    ensures key.Some? ==> key.value in r && r[key.value] == e
  {
    match key
    case None => store
    case Some(k) => store[k := e]
  }

  /**
   * `$allOperations`: pass other operations through; evaluate the TTL (which throws on a
   * `null` directive); without caching, execute and invalidate; with a key function,
   * execute, invalidate and store under the derived key; otherwise serve a read from the
   * store when its key is present, and else execute, invalidate and store.
   */
  function AllOperations(cfg: Config, model: string, op: string, args: Args, query: Query, store: Store): (r: Reply)
    ensures !IsCacheOperation(op) ==> r.executed && r.store == store && r.outcome == Lift(query(args))
    ensures IsCacheOperation(op) && args.cache.CacheNull? ==>
              !r.executed && r.store == store && r.outcome.Threw? && r.outcome.error.TypeError?
    ensures IsWrite(op) && !args.cache.CacheNull? ==> r.executed
    ensures IsCacheOperation(op) && !args.cache.CacheNull? && !r.executed ==>
              !IsWrite(op) && UseCache(args.cache) && PlanKey(cfg, model, op, args).Fixed? &&
              PlanKey(cfg, model, op, args).key in store && r.store == store &&
              r.outcome == Deserialize(store[PlanKey(cfg, model, op, args).key].envelope)
    ensures (IsCacheOperation(op) && !IsWrite(op) && UseCache(args.cache) && !args.cache.CacheNull? &&
             PlanKey(cfg, model, op, args).Fixed? && PlanKey(cfg, model, op, args).key in store) ==> !r.executed
    ensures IsCacheOperation(op) && r.executed && query(Stripped(args)).Err? ==>
              r.outcome == Threw(query(Stripped(args)).error) && r.store == store
    ensures IsCacheOperation(op) && r.executed && query(Stripped(args)).Ok? ==>
              var v := query(Stripped(args)).value;
              var w := WrittenKey(cfg, model, op, args, v);
              r.outcome == Returned(v)
              && (forall k :: k in r.store ==> k in store || Some(k) == w)
              && (forall k :: k in store && Some(k) != w ==> (k in r.store <==> !Evicted(cfg, model, op, args.uncache, v, k)))
              && (forall k :: k in r.store && Some(k) != w ==> r.store[k] == store[k])
              && (w.Some? ==> w.value in r.store && r.store[w.value] == Entry(Serialize(v), ResolveTtl(args.cache, cfg.defaultTtl)))
  {
    if !IsCacheOperation(op) then
      Reply(Lift(query(args)), store, true)
    else if args.cache.CacheNull? then
      Reply(Threw(TypeError("Cannot read properties of null (reading 'ttl')")), store, false)
    else
      var ttl := ResolveTtl(args.cache, cfg.defaultTtl);
      if !UseCache(args.cache) then
        ExecuteAndStore(cfg, model, op, args, query, store, _ => None, ttl)
      else
        match PlanKey(cfg, model, op, args)
        case ByResult(derive) =>
          ExecuteAndStore(cfg, model, op, args, query, store, v => Some(derive(v)), ttl)
        case Fixed(key) =>
          if !IsWrite(op) && key in store then
            Reply(Deserialize(store[key].envelope), store, false)
          else
            ExecuteAndStore(cfg, model, op, args, query, store, _ => Some(key), ttl)
  }

  /**
   * A read that missed and stored its result is answered from the store when repeated
   * with the same arguments: the query does not run again, the store does not change,
   * and the answer is the first result with its object keys sorted.
   */
  lemma SecondReadHits(cfg: Config, model: string, op: string, args: Args, first: Query, second: Query, store: Store)
    requires IsCacheOperation(op) && !IsWrite(op)
    requires UseCache(args.cache) && !args.cache.CacheNull? && PlanKey(cfg, model, op, args).Fixed?
    requires first(Stripped(args)).Ok? && NoSentinel(first(Stripped(args)).value)
    requires AllOperations(cfg, model, op, args, first, store).executed
    ensures var r1 := AllOperations(cfg, model, op, args, first, store);
            var r2 := AllOperations(cfg, model, op, args, second, r1.store);
            !r2.executed && r2.store == r1.store && r2.outcome == Returned(SortKeys(first(Stripped(args)).value))
  {
    var v := first(Stripped(args)).value;
    var key := PlanKey(cfg, model, op, args).key;
    var r1 := AllOperations(cfg, model, op, args, first, store);
    assert WrittenKey(cfg, model, op, args, v) == Some(key);
    assert key in r1.store && r1.store[key].envelope == Serialize(v);
    RoundTrip(v);
  }

  /**
   * A model call whose `uncache` names its own literal key still holds that key
   * afterwards: it is served from it, or the deletion comes before the store.
   */
  lemma OwnKeySurvivesUncache(cfg: Config, model: string, op: string, fields: seq<Field>, query: Query, store: Store)
    requires IsCacheOperation(op) && query(Args(fields, CacheAbsent, UncacheAbsent)).Ok?
    ensures "own" in AllOperations(cfg, model, op, Args(fields, CacheKey("own"), UncacheKey("own")), query, store).store
  {
    var args := Args(fields, CacheKey("own"), UncacheKey("own"));
    assert PlanKey(cfg, model, op, args) == Fixed("own");
    if IsWrite(op) || "own" !in store {
      var ttl := ResolveTtl(args.cache, cfg.defaultTtl);
      assert Stripped(args) == Args(fields, CacheAbsent, UncacheAbsent);
      var step := Execute(cfg, model, op, args, query, store);
      assert step.result.Ok?;
      assert AllOperations(cfg, model, op, args, query, store) == ExecuteAndStore(cfg, model, op, args, query, store, _ => Some("own"), ttl);
    }
  }

  /**
   * With auto-uncache on, a successful write drops exactly the composed keys of its own
   * model: an entry composed for any other model survives, one composed for the written
   * model does not (namespace, model and operation free of `:` and `@`, the hash free of
   * `:` as an MD5 hex digest is, no `uncache` directive, and the key not the one written).
   */
  lemma WriteEvictsOnlyOwnModel(cfg: Config, model: string, op: string, args: Args, query: Query, store: Store,
                                ns: Option<string>, otherModel: string, otherOp: string, hash: string)
    requires cfg.useAutoUncache && IsWrite(op) && !args.cache.CacheNull? && !UseUncache(args.uncache)
    requires query(Stripped(args)).Ok?
    requires ns.Some? ==> Plain(ns.value)
    requires Plain(otherModel) && Plain(otherOp) && ':' !in hash
    requires ComposedKey(ns, otherModel, otherOp, hash) in store
    requires WrittenKey(cfg, model, op, args, query(Stripped(args)).value) != Some(ComposedKey(ns, otherModel, otherOp, hash))
    ensures ComposedKey(ns, otherModel, otherOp, hash) in AllOperations(cfg, model, op, args, query, store).store
        <==> otherModel != model
  {
    TagMatchesOnlyOwnModel(ns, otherModel, otherOp, hash, model);
  }

  /**
   * A user update that creates a post through `data.posts` leaves a cached post query
   * in place: the walk at the call site never sees the arguments, so only `:User:` keys
   * are dropped, although the walk over the arguments themselves would also name `Post`.
   */
  lemma NestedWriteKeepsRelatedEntries(h: Hasher, query: Query, store: Store, hash: string)
    requires ':' !in hash
    requires query(Args(NestedUpdateFields(), CacheAbsent, UncacheAbsent)).Ok?
    requires ComposedKey(None, "Post", "findMany", hash) in store
    ensures ComposedKey(None, "Post", "findMany", hash) in
              AllOperations(Config(None, true, UserPostSchema(), h), "User", "update",
                            Args(NestedUpdateFields(), CacheAbsent, UncacheAbsent), query, store).store
    ensures InvolvedModels(UserPostSchema(), "User", Obj(NestedUpdateFields())) == Ok(["User", "Post"])
  {
    var cfg := Config(None, true, UserPostSchema(), h);
    var args := Args(NestedUpdateFields(), CacheAbsent, UncacheAbsent);
    assert IsWrite("update");
    assert Stripped(args) == args;
    WriteEvictsOnlyOwnModel(cfg, "User", "update", args, query, store, None, "Post", "findMany", hash);
    NestedCreateWalk();
  }

  /** `{ data: { posts: { create: { id: 2 } } }, where: { id: 1 } }` */
  function NestedUpdateFields(): seq<Field> {
    [ Field("data", Obj([Field("posts", Obj([Field("create", Obj([Field("id", Num(2))]))]))])),
      Field("where", Obj([Field("id", Num(1))])) ]
  }

  /**
   * The same arguments under different `cache` directives: `true` and `{ttl: 200}` share
   * a key (the TTL is not part of it), while `{key: "different-key"}` and
   * `{namespace: "different-key"}` each select another one.
   */
  lemma CacheOptionsKeying(cfg: Config, model: string, op: string, fields: seq<Field>)
    ensures var flag := PlanKey(cfg, model, op, Args(fields, CacheFlag(true), UncacheAbsent));
            var ttl := PlanKey(cfg, model, op, Args(fields, CacheOptions(NoKey, None, Some(200)), UncacheAbsent));
            var keyed := PlanKey(cfg, model, op, Args(fields, CacheOptions(KeyText("different-key"), None, Some(100)), UncacheAbsent));
            var spaced := PlanKey(cfg, model, op, Args(fields, CacheOptions(NoKey, Some("different-key"), Some(100)), UncacheAbsent));
            flag == ttl && keyed == Fixed("different-key") && flag != keyed && flag != spaced && keyed != spaced
  {
    var flag := PlanKey(cfg, model, op, Args(fields, CacheFlag(true), UncacheAbsent));
    var spaced := PlanKey(cfg, model, op, Args(fields, CacheOptions(NoKey, Some("different-key"), Some(100)), UncacheAbsent));
    assert flag.key[0] == ':';
    assert StartsWith(spaced.key, "different-key:");
    assert spaced.key[0] == 'd';
    assert spaced.key[13] == ':';
  }
}

=== FILE: keys.dfy ===
/**
 * Cache keys (`generateComposedKey` and `createKey` of `src/methods.ts`).
 * MD5 over the JSON text is not modelled: a `Hasher` stands for it, as an
 * uninterpreted function of the JSON tree (or, for raw SQL text, of the text).
 */
module Keys {

  import opened Wrappers
  import opened Strings
  import opened Numerals
  import opened Values

  /** `md5(JSON.stringify(x))` and `md5(text)`, as opaque functions. */
  datatype Hasher = Hasher(json: Value -> string, text: string -> string)

  /**
   * The tree `JSON.stringify(args, bigint => bigint.toString())` serialises: the replacer
   * turns a bigint into its decimal text; Decimal and Date serialise through `toJSON` as
   * their text; a Buffer serialises through `toJSON` as `{type: "Buffer", data: [...]}`,
   * `data` being the array of its bytes as numbers.
   */
  function JsonForm(v: Value): (r: Value)
    ensures v.BigInt? ==> r == Str(IntToText(v.i))
    ensures v.Arr? ==> r.Arr? && |r.items| == |v.items|
    ensures v.Obj? ==> r.Obj? && |r.fields| == |v.fields|
  {
    match v
    case Decimal(t) => Str(t)
    case BigInt(i) => Str(IntToText(i))
    case Buffer(t) => Obj([Field("type", Str("Buffer")), Field("data", Arr(Numbers(Utf8(t))))])
    case Date(iso) => Str(iso)
    case Arr(items) => Arr(JsonItems(items))
    case Obj(fs) => Obj(JsonFields(fs))
    case _ => v
  }

  /** Byte values as JSON numbers. */
  function Numbers(bytes: seq<int>): (r: seq<Value>)
    ensures |r| == |bytes| && forall i :: 0 <= i < |r| ==> r[i] == Num(bytes[i])
  {
    seq(|bytes|, i requires 0 <= i < |bytes| => Num(bytes[i]))
  }

  /**
   * A Buffer is hashed by its bytes: its JSON form differs from that of a plain object
   * that spells the same `type` and carries the same text as `data`.
   */
  lemma BufferKeyedByBytes(t: string)
    ensures JsonForm(Buffer(t)) != JsonForm(Obj([Field("type", Str("Buffer")), Field("data", Str(t))]))
  {
    var fs := [Field("type", Str("Buffer")), Field("data", Str(t))];
    assert fs[1..] == [Field("data", Str(t))] && fs[1..][1..] == [];
    assert JsonFields(fs[1..]) == [Field("data", Str(t))];
    assert JsonFields(fs)[1] == Field("data", Str(t));
  }

  function JsonItems(items: seq<Value>): (r: seq<Value>)
    ensures |r| == |items|
  {
    if items == [] then [] else [JsonForm(items[0])] + JsonItems(items[1..])
  }

  function JsonFields(fs: seq<Field>): (r: seq<Field>)
    ensures |r| == |fs|
  {
    if fs == [] then [] else [Field(fs[0].name, JsonForm(fs[0].value))] + JsonFields(fs[1..])
  }

  /** `options.namespace ? options.namespace : ''`: an absent or empty namespace contributes nothing. */
  function NamespaceText(ns: Option<string>): string {
    if ns.Some? && ns.value != "" then ns.value else ""
  }

  /** The key template `ns:model:operation@hash`. */
  function ComposedKey(ns: Option<string>, model: string, operation: string, hash: string): string {
    NamespaceText(ns) + ":" + model + ":" + operation + "@" + hash
  }

  /** A name that cannot be confused with the separators of the key template. */
  predicate Plain(name: string) {
    ':' !in name && '@' !in name
  }

  datatype KeyParts = KeyParts(namespace: string, model: string, operation: string, hash: string)

  /** Reads a key back into its four segments: the inverse of `ComposedKey` on plain names. */
  function SplitComposedKey(key: string): Option<KeyParts> {
    match IndexOf(key, ':')
    case None => None
    case Some(i) =>
      var rest := key[i + 1..];
      match IndexOf(rest, ':')
      case None => None
      case Some(j) =>
        var tail := rest[j + 1..];
        match IndexOf(tail, '@')
        case None => None
        case Some(k) => Some(KeyParts(key[..i], rest[..j], tail[..k], tail[k + 1..]))
  }

  /** Cutting `a + [c] + b` at the first `c` gives back `a` and `b` when `c` is not in `a`. */
  lemma CutAt(a: string, c: char, b: string)
    requires c !in a
    ensures IndexOf(a + [c] + b, c) == Some(|a|)
    ensures (a + [c] + b)[..|a|] == a && (a + [c] + b)[|a| + 1..] == b
  {
    IndexOfAfter(a, c, b);
    assert (a + [c] + b)[..|a|] == a;
    assert (a + [c] + b)[|a| + 1..] == b;
  }

  /** `SplitComposedKey` cuts at the three separator positions `IndexOf` finds. */
  lemma SplitAtCuts(key: string, i: nat, j: nat, k: nat)
    requires IndexOf(key, ':') == Some(i)
    requires IndexOf(key[i + 1..], ':') == Some(j)
    requires IndexOf(key[i + 1..][j + 1..], '@') == Some(k)
    ensures SplitComposedKey(key)
         == Some(KeyParts(key[..i], key[i + 1..][..j], key[i + 1..][j + 1..][..k], key[i + 1..][j + 1..][k + 1..]))
  {
  }

  /** The last two segments: `model:operation@hash` splits at its first ':' and then at its first '@'. */
  lemma SplitRest(model: string, operation: string, hash: string)
    requires Plain(model) && Plain(operation)
    ensures var rest := model + [':'] + (operation + ['@'] + hash);
            IndexOf(rest, ':') == Some(|model|)
            && rest[..|model|] == model
            && IndexOf(rest[|model| + 1..], '@') == Some(|operation|)
            && rest[|model| + 1..][..|operation|] == operation
            && rest[|model| + 1..][|operation| + 1..] == hash
  {
    var tail := operation + ['@'] + hash;
    CutAt(model, ':', tail);
    CutAt(operation, '@', hash);
  }

  lemma SplitComposed(ns: Option<string>, model: string, operation: string, hash: string)
    requires ns.Some? ==> Plain(ns.value)
    requires Plain(model) && Plain(operation)
    ensures SplitComposedKey(ComposedKey(ns, model, operation, hash))
         == Some(KeyParts(NamespaceText(ns), model, operation, hash))
  {
    var n := NamespaceText(ns);
    var tail := operation + ['@'] + hash;
    var rest := model + [':'] + tail;
    var key := n + [':'] + rest;
    assert ':' !in n;
    ComposedKeyAssoc(n, model, operation, hash);
    CutAt(n, ':', rest);
    SplitRest(model, operation, hash);
    SplitAtCuts(key, |n|, |model|, |operation|);
  }

  /** The template regrouped around its first separator. */
  lemma ComposedKeyAssoc(n: string, model: string, operation: string, hash: string)
    ensures n + ":" + model + ":" + operation + "@" + hash == n + [':'] + (model + [':'] + (operation + ['@'] + hash))
  {
  }

  /** On plain names the template is injective: equal keys have equal segments. */
  lemma ComposedKeyInjective(ns1: Option<string>, model1: string, op1: string, hash1: string,
                             ns2: Option<string>, model2: string, op2: string, hash2: string)
    requires ns1.Some? ==> Plain(ns1.value)
    requires ns2.Some? ==> Plain(ns2.value)
    requires Plain(model1) && Plain(op1) && Plain(model2) && Plain(op2)
    requires ComposedKey(ns1, model1, op1, hash1) == ComposedKey(ns2, model2, op2, hash2)
    ensures NamespaceText(ns1) == NamespaceText(ns2)
    ensures model1 == model2 && op1 == op2 && hash1 == hash2
  {
    SplitComposed(ns1, model1, op1, hash1);
    SplitComposed(ns2, model2, op2, hash2);
  }

  lemma ComposedKeyShape(ns: Option<string>, model: string, operation: string, hash: string)
    ensures StartsWith(ComposedKey(ns, model, operation, hash), NamespaceText(ns) + ":")
    ensures Contains(ComposedKey(ns, model, operation, hash), ":" + model + ":")
  {
    var n := NamespaceText(ns);
    var key := ComposedKey(ns, model, operation, hash);
    assert key == n + (":" + model + ":") + (operation + "@" + hash);
    assert key[..|n + ":"|] == n + ":";
    ContainsInfix(n, ":" + model + ":", operation + "@" + hash);
  }

  /** With plain segments and a colon-free hash, a composed key has exactly two colons. */
  lemma ColonsOfComposedKey(ns: Option<string>, model: string, operation: string, hash: string)
    requires ns.Some? ==> Plain(ns.value)
    requires Plain(model) && Plain(operation) && ':' !in hash
    ensures var key := ComposedKey(ns, model, operation, hash);
            var n := |NamespaceText(ns)|;
            forall j :: 0 <= j < |key| && key[j] == ':' ==> j == n || j == n + |model| + 1
  {
    var ns' := NamespaceText(ns);
    var n := |ns'|;
    var rest := operation + "@" + hash;
    var key := ComposedKey(ns, model, operation, hash);
    assert key == ns' + ":" + model + ":" + rest;
    assert ':' !in ns' && ':' !in rest;
    forall j | 0 <= j < |key| && j != n && j != n + |model| + 1 ensures key[j] != ':' {
      if j < n {
        assert key[j] == ns'[j];
      } else if n < j < n + |model| + 1 {
        assert key[j] == model[j - n - 1];
      } else if j > n + |model| + 1 {
        assert key[j] == rest[j - n - |model| - 2];
      }
    }
  }

  /**
   * The auto-uncache pattern `:m:` matches a composed key (plain segments, colon-free
   * hash, as an MD5 hex digest is) exactly when the key was composed for model `m`.
   */
  lemma TagMatchesOnlyOwnModel(ns: Option<string>, model: string, operation: string, hash: string, m: string)
    requires ns.Some? ==> Plain(ns.value)
    requires Plain(model) && Plain(operation) && ':' !in hash
    ensures Contains(ComposedKey(ns, model, operation, hash), ":" + m + ":") <==> m == model
  {
    var key := ComposedKey(ns, model, operation, hash);
    var n := |NamespaceText(ns)|;
    ComposedKeyShape(ns, model, operation, hash);
    if Contains(key, ":" + m + ":") {
      ContainsOccurs(key, ":" + m + ":");
      var i: nat :| OccursAt(key, ":" + m + ":", i);
      TagOccurrence(key, m, i);
      ColonsOfComposedKey(ns, model, operation, hash);
      ModelSegment(ns, model, operation, hash);
      assert i == n && |m| == |model|;
    }
  }

  /** An occurrence of `:m:` at `i`: colons at both ends, `m` in between. */
  lemma TagOccurrence(key: string, m: string, i: nat)
    requires OccursAt(key, ":" + m + ":", i)
    ensures i + |m| + 1 < |key| && key[i] == ':' && key[i + |m| + 1] == ':' && key[i + 1..i + 1 + |m|] == m
  {
    var t := ":" + m + ":";
    assert key[i..i + |t|] == t;
    assert key[i] == t[0];
    assert key[i + |m| + 1] == t[|m| + 1];
    forall j | 0 <= j < |m| ensures key[i + 1..i + 1 + |m|][j] == m[j] {
      assert key[i + 1 + j] == key[i..i + |t|][1 + j] == t[1 + j];
    }
  }

  /** The model sits between the first two separators. */
  lemma ModelSegment(ns: Option<string>, model: string, operation: string, hash: string)
    ensures var n := |NamespaceText(ns)|;
            ComposedKey(ns, model, operation, hash)[n + 1..n + 1 + |model|] == model
  {
    var n := NamespaceText(ns);
    ComposedKeyAssoc(n, model, operation, hash);
    var rest := model + [':'] + (operation + ['@'] + hash);
    assert (n + [':'] + rest)[|n| + 1..] == rest;
    assert rest[..|model|] == model;
  }

  /**
   * `generateComposedKey({model, operation, namespace, queryArgs})`: the key of an
   * un-keyed cached call, a function of the JSON form of its arguments.
   */
  function GenerateComposedKey(h: Hasher, model: string, operation: string,
                               ns: Option<string>, queryArgs: Value): (r: string)
    ensures StartsWith(r, NamespaceText(ns) + ":")
    ensures NamespaceText(ns) == "" ==> r[0] == ':'
    ensures Contains(r, ":" + model + ":")
    ensures (ns.Some? ==> Plain(ns.value)) && Plain(model) && Plain(operation) ==>
              SplitComposedKey(r) == Some(KeyParts(NamespaceText(ns), model, operation, h.json(JsonForm(queryArgs))))
  {
    var hash := h.json(JsonForm(queryArgs));
    var r := ComposedKey(ns, model, operation, hash);
    ComposedKeyShape(ns, model, operation, hash);
    if (ns.Some? ==> Plain(ns.value)) && Plain(model) && Plain(operation) then
      SplitComposed(ns, model, operation, hash);
      r
    else
      r
  }

  /**
   * On plain names, two calls share a composed key exactly when namespace text, model
   * and operation agree and the hashes of their JSON forms agree.
   */
  lemma ComposedKeysEqualIff(h: Hasher, model1: string, op1: string, ns1: Option<string>, args1: Value,
                             model2: string, op2: string, ns2: Option<string>, args2: Value)
    requires ns1.Some? ==> Plain(ns1.value)
    requires ns2.Some? ==> Plain(ns2.value)
    requires Plain(model1) && Plain(op1) && Plain(model2) && Plain(op2)
    ensures GenerateComposedKey(h, model1, op1, ns1, args1) == GenerateComposedKey(h, model2, op2, ns2, args2)
        <==> NamespaceText(ns1) == NamespaceText(ns2) && model1 == model2 && op1 == op2
             && h.json(JsonForm(args1)) == h.json(JsonForm(args2))
  {
    var k1 := GenerateComposedKey(h, model1, op1, ns1, args1);
    var k2 := GenerateComposedKey(h, model2, op2, ns2, args2);
    if k1 == k2 {
      assert SplitComposedKey(k1) == SplitComposedKey(k2);
    }
  }

  /**
   * The hash sees only the JSON form: an argument object holding a bigint, at any
   * position, gets the same key as the same object holding the bigint's decimal text.
   */
  lemma BigIntKeyedAsText(h: Hasher, model: string, operation: string, ns: Option<string>,
                          pre: seq<Field>, name: string, i: int, post: seq<Field>)
    ensures GenerateComposedKey(h, model, operation, ns, Obj(pre + [Field(name, BigInt(i))] + post))
         == GenerateComposedKey(h, model, operation, ns, Obj(pre + [Field(name, Str(IntToText(i)))] + post))
  {
    var f := Field(name, BigInt(i));
    var g := Field(name, Str(IntToText(i)));
    JsonFieldsAppend(pre + [f], post);
    JsonFieldsAppend(pre, [f]);
    JsonFieldsAppend(pre + [g], post);
    JsonFieldsAppend(pre, [g]);
    assert [f][1..] == [] && [g][1..] == [];
    assert JsonFields([f]) == JsonFields([g]);
  }

  /** The JSON form of fields is taken field by field. */
  lemma {:induction false} JsonFieldsAppend(a: seq<Field>, b: seq<Field>)
    ensures JsonFields(a + b) == JsonFields(a) + JsonFields(b)
    decreases |a|
  {
    if a == [] {
      assert a + b == b;
    } else {
      assert (a + b)[0] == a[0] && (a + b)[1..] == a[1..] + b;
      JsonFieldsAppend(a[1..], b);
    }
  }

  lemma JoinNonEmptyPair(a: string, b: string)
    ensures Join(NonEmpty([a, b]), ":")
         == if a != "" && b != "" then a + ":" + b else if a != "" then a else b
  {
    var parts := [a, b];
    assert parts[1..] == [b] && [b][1..] == [];
    assert NonEmpty([b]) == if b == "" then [] else [b];
    if a != "" && b != "" {
      assert NonEmpty(parts) == [a, b];
    } else if a != "" {
      assert NonEmpty(parts) == [a];
    } else if b != "" {
      assert NonEmpty(parts) == [b];
    } else {
      assert NonEmpty(parts) == [];
    }
  }

  /** `createKey(key, namespace)`: the non-empty parts among namespace and key, joined by ':'. */
  function CreateKey(key: Option<string>, ns: Option<string>): (r: string)
    ensures key.Some? && key.value != "" && ns.Some? && ns.value != "" ==> r == ns.value + ":" + key.value
    ensures key.Some? && key.value != "" && (ns.None? || ns.value == "") ==> r == key.value
    ensures (key.None? || key.value == "") && ns.Some? && ns.value != "" ==> r == ns.value
    ensures (key.None? || key.value == "") && (ns.None? || ns.value == "") ==> r == ""
  {
    JoinNonEmptyPair(ns.GetOr(""), key.GetOr(""));
    Join(NonEmpty([ns.GetOr(""), key.GetOr("")]), ":")
  }
}

=== FILE: numerals.dfy ===
/**
 * Decimal text of integers: `bigint.toString()` (used by the codec and by the key hash's replacer)
 * and the `BigInt(text)` constructor the codec's reviver calls.
 */
module Numerals {

  import opened Wrappers

  predicate IsDigit(c: char) {
    '0' <= c <= '9'
  }

  predicate AllDigits(s: string) {
    forall i :: 0 <= i < |s| ==> IsDigit(s[i])
  }

  function DigitChar(d: nat): (c: char)
    requires d < 10
    ensures IsDigit(c)
  {
    ('0' as int + d) as char
  }

  function DigitValue(c: char): (d: nat)
    requires IsDigit(c)
    ensures d < 10 && DigitChar(d) == c
  {
    c as int - '0' as int
  }

  /** The canonical decimal text of a natural number: no sign, no leading zeros. */
  function NatToText(n: nat): (r: string)
    ensures |r| >= 1 && AllDigits(r)
    ensures |r| > 1 ==> r[0] != '0'
    decreases n
  {
    if n < 10 then [DigitChar(n)] else NatToText(n / 10) + [DigitChar(n % 10)]
  }

  /** `i.toString()` for a bigint `i`. */
  function IntToText(i: int): (r: string)
    ensures |r| >= 1
    ensures i < 0 <==> r[0] == '-'
  {
    if i < 0 then "-" + NatToText(-i) else NatToText(i)
  }

  /** The value of a string of decimal digits, most significant first. */
  function DigitsValue(s: string): nat
    requires AllDigits(s)
  {
    if s == [] then 0 else DigitsValue(s[..|s| - 1]) * 10 + DigitValue(s[|s| - 1])
  }

  /**
   * `BigInt(s)` on the texts the codec can meet: the empty string is 0, an optional
   * minus sign followed by at least one digit is that integer, anything else throws.
   */
  function ParseBigInt(s: string): (r: Result<int>)
    ensures r.Err? ==> r.error.SyntaxError?
    ensures AllDigits(s) ==> r.Ok? && r.value >= 0
    ensures r.Ok? && r.value < 0 ==> s[0] == '-'
  {
    if s == [] then Ok(0)
    else if s[0] == '-' && |s| > 1 && AllDigits(s[1..]) then Ok(0 - DigitsValue(s[1..]))
    else if AllDigits(s) then Ok(DigitsValue(s))
    else Err(SyntaxError("Cannot convert " + s + " to a BigInt"))
  }

  lemma {:induction false} NatTextValue(n: nat)
    ensures DigitsValue(NatToText(n)) == n
    decreases n
  {
    var r := NatToText(n);
    if n >= 10 {
      NatTextValue(n / 10);
      assert r[..|r| - 1] == NatToText(n / 10);
    }
  }

  /** Two naturals have the same text exactly when they are equal: no two indices share a key. */
  lemma NatTextInjective(m: nat, n: nat)
    ensures NatToText(m) == NatToText(n) <==> m == n
  {
    NatTextValue(m);
    NatTextValue(n);
  }

  /** `BigInt(i.toString()) === i`: the codec's bigint leaves survive the round trip. */
  lemma ParseIntText(i: int)
    ensures ParseBigInt(IntToText(i)) == Ok(i)
  {
    if i < 0 {
      NatTextValue(-i);
      assert IntToText(i)[1..] == NatToText(-i);
    } else {
      NatTextValue(i);
    }
  }
}

=== FILE: operations.dfy ===
/** The fixed operation-classification tables of the extension (`src/types.ts`). */
module Operations {

  import opened Strings

  /** Every operation the extension intercepts. */
  const CacheOperations: seq<string> := [
    "findMany", "findFirst", "findFirstOrThrow", "findUnique", "findUniqueOrThrow",
    "count", "aggregate", "groupBy", "create", "createMany", "updateMany", "update",
    "upsert", "delete", "deleteMany"
  ]

  /** Operations that only read: the only ones that consult the store before running. */
  const ReadOperations: seq<string> := [
    "findMany", "findFirst", "findFirstOrThrow", "findUnique", "findUniqueOrThrow",
    "count", "aggregate", "groupBy"
  ]

  /** Operations that mutate: always executed, and the trigger of auto-uncache. */
  const WriteOperations: seq<string> := [
    "create", "createMany", "updateMany", "upsert", "update", "delete", "deleteMany"
  ]

  /** Operations whose argument object is mandatory. */
  const RequiredArgsOperations: seq<string> := [
    "findUnique", "findUniqueOrThrow", "aggregate", "groupBy", "create", "createMany",
    "updateMany", "update", "upsert", "delete"
  ]

  /** Operations callable without an argument object. */
  const OptionalArgsOperations: seq<string> := [
    "findMany", "findFirst", "findFirstOrThrow", "count", "deleteMany"
  ]

  /** `WRITE_OPERATIONS.includes(operation)` */
  predicate IsWrite(op: string) {
    op in WriteOperations
  }

  /** `CACHE_OPERATIONS.includes(operation)` */
  predicate IsCacheOperation(op: string) {
    op in CacheOperations
  }

  /** Reads and writes split the intercepted operations into two disjoint halves. */
  lemma ReadWritePartition()
    ensures forall op :: op in CacheOperations <==> op in ReadOperations || op in WriteOperations
    ensures forall op :: op in ReadOperations ==> op !in WriteOperations
  {
  }

  /** So do the operations with required and with optional arguments. */
  lemma ArgsPartition()
    ensures forall op :: op in CacheOperations <==> op in RequiredArgsOperations || op in OptionalArgsOperations
    ensures forall op :: op in RequiredArgsOperations ==> op !in OptionalArgsOperations
  {
  }

  /** No table repeats an operation, so their lengths count distinct operations. */
  lemma TableSizes()
    ensures NoDuplicates(CacheOperations) && |CacheOperations| == 15
    ensures NoDuplicates(ReadOperations) && |ReadOperations| == 8
    ensures NoDuplicates(WriteOperations) && |WriteOperations| == 7
    ensures NoDuplicates(RequiredArgsOperations) && |RequiredArgsOperations| == 10
    ensures NoDuplicates(OptionalArgsOperations) && |OptionalArgsOperations| == 5
  {
  }
}

=== FILE: raw.dfy ===
/**
 * The `$queryRawCached` and `$queryRawUnsafeCached` client methods of `src/index.ts`:
 * raw SQL answered from the store under a key composed from the SQL, else executed,
 * stored, and followed by the `uncache` directive both before and after the store.
 */
module RawQueries {

  import opened Wrappers
  import opened Values
  import opened Keys
  import opened Codec
  import opened Directives
  import opened Engine

  /** A tagged template: the literal string parts and the interpolated values. */
  datatype Sql = Sql(strings: seq<string>, values: seq<Value>)

  /** The optional second argument; an omitted one is `RawOptions(CacheAbsent, UncacheAbsent)`. */
  datatype RawOptions = RawOptions(cache: CacheDirective, uncache: UncacheDirective)

  /** `generateComposedKey({ model: "$queryRaw", operation: md5(JSON.stringify(strings)), queryArgs: values })` */
  function RawKey(h: Hasher, sql: Sql): string {
    GenerateComposedKey(h, "$queryRaw", h.json(StringParts(sql)), None, Arr(sql.values))
  }

  /** The literal parts as the JSON array `JSON.stringify(sql.strings)` writes. */
  function StringParts(sql: Sql): Value {
    Arr(seq(|sql.strings|, i requires 0 <= i < |sql.strings| => Str(sql.strings[i])))
  }

  /** `generateComposedKey({ model: "$queryRawUnsafe", operation: md5(sql), queryArgs: {} })` */
  function RawUnsafeKey(h: Hasher, sql: string): string {
    GenerateComposedKey(h, "$queryRawUnsafe", h.text(sql), None, Obj([]))
  }

  /** `processUncache(result)` of the raw methods. */
  function Uncache(store: Store, uncache: UncacheDirective, result: Value): (r: Store)
    ensures forall k :: k in r <==> k in store && !Dropped(uncache, result, k)
    ensures forall k :: k in r ==> r[k] == store[k]
  {
    if UseUncache(uncache) then DeleteKeys(store, KeysToDelete(uncache, result)) else store
  }

  /**
   * The shared body of both raw methods: whatever the `cache` directive says (even
   * `false`), a present key is served from the store; on a miss the query's `result`
   * is stored under `key` with the resolved TTL, the `uncache` keys being deleted just
   * before and again just after the store.
   */
  function RawCached(cfg: Config, key: string, opts: RawOptions, result: Result<Value>, store: Store): (r: Reply)
    ensures key in store ==> !r.executed && r.store == store && r.outcome == Deserialize(store[key].envelope)
    ensures key !in store ==> r.executed && r.outcome == Lift(result)
    ensures key !in store && result.Err? ==> r.store == store
    ensures key !in store && result.Ok? ==>
              (forall k :: k in r.store <==> (k in store || k == key) && !Dropped(opts.uncache, result.value, k))
              && (forall k :: k in r.store && k != key ==> r.store[k] == store[k])
              && (key in r.store ==> r.store[key] == Entry(Serialize(result.value), ResolveTtl(opts.cache, cfg.defaultTtl)))
  {
    if key in store then
      Reply(Deserialize(store[key].envelope), store, false)
    else
      match result
      case Err(e) => Reply(Threw(e), store, true)
      case Ok(v) =>
        var before := Uncache(store, opts.uncache, v);
        var stored := before[key := Entry(Serialize(v), ResolveTtl(opts.cache, cfg.defaultTtl))];
        Reply(Returned(v), Uncache(stored, opts.uncache, v), true)
  }

  /** `$queryRawCached(sql, cacheOption)` */
  function QueryRawCached(cfg: Config, sql: Sql, opts: RawOptions, query: Sql -> Result<Value>, store: Store): (r: Reply)
    ensures RawKey(cfg.hasher, sql) in store <==> !r.executed
    ensures !r.executed ==> r.store == store && r.outcome == Deserialize(store[RawKey(cfg.hasher, sql)].envelope)
    ensures r.executed ==> r.outcome == Lift(query(sql))
  {
    RawCached(cfg, RawKey(cfg.hasher, sql), opts, query(sql), store)
  }

  /** `$queryRawUnsafeCached(sql, cacheOption)` */
  function QueryRawUnsafeCached(cfg: Config, sql: string, opts: RawOptions, query: string -> Result<Value>, store: Store): (r: Reply)
    ensures RawUnsafeKey(cfg.hasher, sql) in store <==> !r.executed
    ensures !r.executed ==> r.store == store && r.outcome == Deserialize(store[RawUnsafeKey(cfg.hasher, sql)].envelope)
    ensures r.executed ==> r.outcome == Lift(query(sql))
  {
    RawCached(cfg, RawUnsafeKey(cfg.hasher, sql), opts, query(sql), store)
  }

  /**
   * Repeating a raw query that missed is answered from the store with the first result,
   * keys sorted, provided the `uncache` directive did not name the query's own key.
   */
  lemma RawSecondCallHits(cfg: Config, sql: Sql, opts: RawOptions, first: Sql -> Result<Value>,
                          second: Sql -> Result<Value>, store: Store)
    requires RawKey(cfg.hasher, sql) !in store
    requires first(sql).Ok? && NoSentinel(first(sql).value)
    requires !Dropped(opts.uncache, first(sql).value, RawKey(cfg.hasher, sql))
    ensures var r1 := QueryRawCached(cfg, sql, opts, first, store);
            var r2 := QueryRawCached(cfg, sql, opts, second, r1.store);
            !r2.executed && r2.store == r1.store && r2.outcome == Returned(SortKeys(first(sql).value))
  {
    var key := RawKey(cfg.hasher, sql);
    var r1 := QueryRawCached(cfg, sql, opts, first, store);
    assert key in r1.store;
    RoundTrip(first(sql).value);
  }

  /** Unlike model calls, a raw call caches even under `cache: false`. */
  lemma RawIgnoresCacheFlag(cfg: Config, sql: Sql, query: Sql -> Result<Value>, store: Store)
    requires RawKey(cfg.hasher, sql) !in store && query(sql).Ok?
    ensures var r := QueryRawCached(cfg, sql, RawOptions(CacheFlag(false), UncacheAbsent), query, store);
            RawKey(cfg.hasher, sql) in r.store
            && r.store[RawKey(cfg.hasher, sql)] == Entry(Serialize(query(sql).value), cfg.defaultTtl)
  {
  }

  /**
   * An `uncache` naming the call's own key: a raw query deletes it again after storing
   * it, while a model read deletes before storing and so keeps the fresh entry.
   */
  lemma UncacheOfOwnKey(cfg: Config, sql: Sql, rawQuery: Sql -> Result<Value>,
                        model: string, op: string, fields: seq<Field>, query: Query, store: Store)
    requires RawKey(cfg.hasher, sql) !in store && rawQuery(sql).Ok?
    requires Operations.IsCacheOperation(op) && query(Args(fields, CacheAbsent, UncacheAbsent)).Ok?
    ensures RawKey(cfg.hasher, sql) !in
              QueryRawCached(cfg, sql, RawOptions(CacheAbsent, UncacheKey(RawKey(cfg.hasher, sql))), rawQuery, store).store
    ensures "own" in AllOperations(cfg, model, op, Args(fields, CacheKey("own"), UncacheKey("own")), query, store).store
  {
    RawUncacheDropsOwnKey(cfg, sql, rawQuery, store);
    OwnKeySurvivesUncache(cfg, model, op, fields, query, store);
  }

  lemma RawUncacheDropsOwnKey(cfg: Config, sql: Sql, rawQuery: Sql -> Result<Value>, store: Store)
    requires RawKey(cfg.hasher, sql) !in store && rawQuery(sql).Ok?
    ensures RawKey(cfg.hasher, sql) !in
              QueryRawCached(cfg, sql, RawOptions(CacheAbsent, UncacheKey(RawKey(cfg.hasher, sql))), rawQuery, store).store
  {
    var key := RawKey(cfg.hasher, sql);
    assert Dropped(UncacheKey(key), rawQuery(sql).value, key);
  }

  /**
   * The two raw methods never share an entry: their keys carry different model segments
   * (the hashes being free of `:` and `@`, as MD5 hex digests are).
   */
  lemma RawKeysSeparate(h: Hasher, sql: Sql, text: string)
    requires Plain(h.json(StringParts(sql)))
    requires Plain(h.text(text))
    ensures RawKey(h, sql) != RawUnsafeKey(h, text)
  {
    assert Plain("$queryRaw") && Plain("$queryRawUnsafe");
    assert SplitComposedKey(RawKey(h, sql)).value.model == "$queryRaw";
    assert SplitComposedKey(RawUnsafeKey(h, text)).value.model == "$queryRawUnsafe";
  }
}

=== FILE: relations.dfy ===
/**
 * The relation walk `getInvolvedModels(prisma, modelName, args)` of `src/methods.ts`,
 * as written: it enumerates `args.data` but recurses into `args[field]`.
 * The schema is the read-only Prisma data model: models, their fields, relation kinds.
 */
module RelationWalk {

  import opened Wrappers
  import opened Values
  import opened Strings

  datatype FieldKind = Scalar | Object | Enum | Unsupported

  /** A field of the data model; `kind == Object` marks a relation to the model named `typ`. */
  datatype FieldMeta = FieldMeta(name: string, kind: FieldKind, typ: string)

  datatype ModelMeta = ModelMeta(name: string, fields: seq<FieldMeta>)

  type Schema = seq<ModelMeta>

  /** `models.find(m => m.name === name)` */
  function FindModel(schema: Schema, name: string): (r: Option<ModelMeta>)
    ensures r.Some? ==> r.value in schema && r.value.name == name
    ensures r.None? ==> forall m :: m in schema ==> m.name != name
  {
    if schema == [] then None
    else if schema[0].name == name then Some(schema[0])
    else FindModel(schema[1..], name)
  }

  /** `fields.find(f => f.name === name)` */
  function FindField(fields: seq<FieldMeta>, name: string): (r: Option<FieldMeta>)
    ensures r.Some? ==> r.value in fields && r.value.name == name
    ensures r.None? ==> forall f :: f in fields ==> f.name != name
  {
    if fields == [] then None
    else if fields[0].name == name then Some(fields[0])
    else FindField(fields[1..], name)
  }

  /** `model.fields.some(f => f.name === field && f.kind === 'object')` */
  predicate IsRelation(m: ModelMeta, field: string) {
    exists f :: f in m.fields && f.name == field && f.kind == Object
  }

  /** The `type` of the field `find` returns for a relation field name. */
  function RelatedModel(m: ModelMeta, field: string): (r: string)
    requires IsRelation(m, field)
    ensures exists f :: f in m.fields && f.name == field && f.typ == r
  {
    FindField(m.fields, field).value.typ
  }

  /** `b` is the type of a relation field of the model `FindModel` returns for `a`. */
  ghost predicate Step(schema: Schema, a: string, b: string) {
    FindModel(schema, a).Some?
    && exists k :: IsRelation(FindModel(schema, a).value, k) && RelatedModel(FindModel(schema, a).value, k) == b
  }

  /** `to` is `from` or is reached from it in at most `depth` steps along relation fields. */
  ghost predicate ReachableWithin(schema: Schema, from: string, to: string, depth: nat)
    decreases depth
  {
    from == to || (depth > 0 && exists mid :: Step(schema, from, mid) && ReachableWithin(schema, mid, to, depth - 1))
  }

  ghost predicate Reachable(schema: Schema, from: string, to: string) {
    exists depth: nat :: ReachableWithin(schema, from, to, depth)
  }

  lemma ReachableRefl(schema: Schema, a: string)
    ensures Reachable(schema, a, a)
  {
    assert ReachableWithin(schema, a, a, 0);
  }

  lemma ReachableStep(schema: Schema, a: string, b: string, c: string)
    requires Step(schema, a, b) && Reachable(schema, b, c)
    ensures Reachable(schema, a, c)
  {
    var d: nat :| ReachableWithin(schema, b, c, d);
    assert ReachableWithin(schema, a, c, d + 1);
  }

  /** `[...new Set(s)]`: first occurrences, in order. */
  function Dedup(s: seq<string>): (r: seq<string>)
    ensures NoDuplicates(r)
    ensures forall x :: x in r <==> x in s
    ensures |s| > 0 ==> |r| > 0 && r[0] == s[0]
  {
    if s == [] then []
    else
      var r := Dedup(s[..|s| - 1]);
      assert forall x :: x in s <==> x in s[..|s| - 1] || x == s[|s| - 1];
      if s[|s| - 1] in r then r else r + [s[|s| - 1]]
  }

  /** The property names of `args.data`; nothing when `data` is undefined. */
  function DataKeys(args: Value): seq<string> {
    match Member(args, "data")
    case Some(d) => ForInKeys(d)
    case None => []
  }

  /**
   * `getInvolvedModels(prisma, modelName, args)`: the root model, then for every
   * relation field named in `args.data` its related model followed by the models
   * found in each property of `args[field]`, without repetitions. Reading `data` of
   * `null`, or the fields of a model the schema lacks, throws.
   */
  function InvolvedModels(schema: Schema, modelName: string, args: Value): (r: Result<seq<string>>)
    ensures r.Ok? ==> |r.value| >= 1 && r.value[0] == modelName && NoDuplicates(r.value)
    ensures r.Ok? ==> forall x :: x in r.value && x != modelName ==>
              FindModel(schema, modelName).Some? && Derived(schema, FindModel(schema, modelName).value, DataKeys(args), x)
    ensures !args.Null? && DataKeys(args) == [] ==> r == Ok([modelName])
    ensures !args.Null? && FindModel(schema, modelName).Some?
            && (forall k :: k in DataKeys(args) ==> !IsRelation(FindModel(schema, modelName).value, k)) ==>
              r == Ok([modelName])
    ensures r.Ok? && FindModel(schema, modelName).Some? ==>
              forall k :: k in DataKeys(args) && IsRelation(FindModel(schema, modelName).value, k) ==>
                RelatedModel(FindModel(schema, modelName).value, k) in r.value
    ensures r.Err? ==> r.error.TypeError?
    decreases Size(args), 2, 0
  {
    if args.Null? then Err(TypeError("Cannot read properties of null (reading 'data')"))
    else
      var keys := DataKeys(args);
      if keys == [] then Ok([modelName])
      else
        match FindModel(schema, modelName)
        case None => Err(TypeError("Cannot read properties of undefined (reading 'fields')"))
        case Some(m) =>
          match WalkFields(schema, m, args, keys)
          case Err(e) => Err(e)
          case Ok(found) =>
            assert [modelName] + found == [modelName] ==> Dedup([modelName]) == [modelName] by {
              assert [modelName][..0] == [];
            }
            Ok(Dedup([modelName] + found))
  }

  /**
   * `x` comes from one of the relation keys among `keys`: it is that relation's
   * target model or a model reachable from the target through relation fields.
   */
  ghost predicate Derived(schema: Schema, m: ModelMeta, keys: seq<string>, x: string) {
    exists k :: k in keys && IsRelation(m, k) && Reachable(schema, RelatedModel(m, k), x)
  }

  /**
   * The `for (const field in args.data)` loop over the property names `keys`: each
   * relation field contributes its target and what the nested walk finds; any other
   * key contributes nothing.
   */
  function WalkFields(schema: Schema, m: ModelMeta, args: Value, keys: seq<string>): (r: Result<seq<string>>)
    ensures r.Ok? ==> forall x :: x in r.value ==> Derived(schema, m, keys, x)
    ensures r.Ok? ==> forall k :: k in keys && IsRelation(m, k) ==> RelatedModel(m, k) in r.value
    ensures (forall k :: k in keys ==> !IsRelation(m, k)) ==> r == Ok([])
    ensures r.Err? ==> r.error.TypeError?
    decreases Size(args), 1, |keys| + 1
  {
    if keys == [] then Ok([])
    else
      var here := FieldModels(schema, m, args, keys[0]);
      var rest := WalkFields(schema, m, args, keys[1..]);
      FoundDerived(schema, m, keys, here, rest);
      Then(here, rest)
  }

  /** The first failure of two walks run in turn, else their findings one after the other. */
  function Then(a: Result<seq<string>>, b: Result<seq<string>>): (r: Result<seq<string>>)
    ensures a.Err? ==> r == a
    ensures a.Ok? && b.Err? ==> r == b
    ensures a.Ok? && b.Ok? ==> r.Ok? && r.value == a.value + b.value
  {
    match a
    case Err(_) => a
    case Ok(x) =>
      match b
      case Err(_) => b
      case Ok(y) => Ok(x + y)
  }

  /**
   * One pass of that loop: a relation field contributes its target model, followed by
   * what the walk finds in each property of `args[field]` when that is an object.
   */
  function FieldModels(schema: Schema, m: ModelMeta, args: Value, field: string): (r: Result<seq<string>>)
    ensures !IsRelation(m, field) ==> r == Ok([])
    ensures IsRelation(m, field) && r.Ok? ==>
              |r.value| >= 1 && r.value[0] == RelatedModel(m, field)
              && forall x :: x in r.value ==> Reachable(schema, RelatedModel(m, field), x)
    ensures r.Err? ==> r.error.TypeError?
    decreases Size(args), 1, 0
  {
    if IsRelation(m, field) then
      var related := RelatedModel(m, field);
      ReachableRefl(schema, related);
      match Member(args, field)
      case Some(child) =>
        if TypeOf(child) == "object" then
          match NestedWalk(schema, related, child, ForInKeys(child))
          case Ok(nested) => Ok([related] + nested)
          case Err(e) => Err(e)
        else Ok([related])
      case None => Ok([related])
    else Ok([])
  }

  /** Each model reported for `keys` comes from the first key or from one of the others. */
  lemma FoundDerived(schema: Schema, m: ModelMeta, keys: seq<string>, here: Result<seq<string>>, rest: Result<seq<string>>)
    requires keys != []
    requires rest.Ok? ==> forall x :: x in rest.value ==> Derived(schema, m, keys[1..], x)
    requires here.Ok? && IsRelation(m, keys[0]) ==> forall x :: x in here.value ==> Reachable(schema, RelatedModel(m, keys[0]), x)
    requires !IsRelation(m, keys[0]) ==> here == Ok([])
    ensures Then(here, rest).Ok? ==> forall x :: x in Then(here, rest).value ==> Derived(schema, m, keys, x)
  {
    if here.Ok? && rest.Ok? {
      forall x | x in here.value + rest.value ensures Derived(schema, m, keys, x) {
        if x in here.value {
          assert keys[0] in keys;
        } else {
          var k :| k in keys[1..] && IsRelation(m, k) && Reachable(schema, RelatedModel(m, k), x);
          assert k in keys;
        }
      }
    }
  }

  /** The `for (const relatedMethodName in args[field])` loop, one recursive walk per property. */
  function NestedWalk(schema: Schema, related: string, child: Value, names: seq<string>): (r: Result<seq<string>>)
    ensures r.Ok? ==> forall x :: x in r.value ==> Reachable(schema, related, x)
    ensures r.Err? ==> r.error.TypeError?
    decreases Size(child), 3, |names|
  {
    if names == [] then Ok([])
    else
      match Member(child, names[0])
      case None => Err(TypeError("Cannot read properties of undefined (reading 'data')"))
      case Some(grandchild) =>
        match InvolvedModels(schema, related, grandchild)
        case Err(e) => Err(e)
        case Ok(models) =>
          match NestedWalk(schema, related, child, names[1..])
          case Err(e) => Err(e)
          case Ok(rest) =>
            ModelsReachable(schema, related, grandchild, models);
            Ok(models + rest)
  }

  /** What a walk from `name` reports is reachable from `name`. */
  lemma ModelsReachable(schema: Schema, name: string, args: Value, models: seq<string>)
    requires forall x :: x in models && x != name ==>
               FindModel(schema, name).Some? && Derived(schema, FindModel(schema, name).value, DataKeys(args), x)
    ensures forall x :: x in models ==> Reachable(schema, name, x)
  {
    forall x | x in models ensures Reachable(schema, name, x) {
      if x == name {
        ReachableRefl(schema, name);
      } else {
        var m := FindModel(schema, name).value;
        var k :| k in DataKeys(args) && IsRelation(m, k) && Reachable(schema, RelatedModel(m, k), x);
        assert Step(schema, name, RelatedModel(m, k));
        ReachableStep(schema, name, RelatedModel(m, k), x);
      }
    }
  }

  /** A key that names no relation field can be dropped from the walk without changing it. */
  lemma {:induction false} WalkSkipsPlainKey(schema: Schema, m: ModelMeta, args: Value,
                                             a: seq<string>, k: string, b: seq<string>)
    requires !IsRelation(m, k)
    ensures WalkFields(schema, m, args, a + [k] + b) == WalkFields(schema, m, args, a + b)
    decreases |a|
  {
    if a == [] {
      assert a + [k] + b == [k] + b && a + b == b;
      WalkPlainHead(schema, m, args, k, b);
    } else {
      var keys := a + [k] + b;
      assert keys[0] == a[0] && keys[1..] == a[1..] + [k] + b;
      assert (a + b)[0] == a[0] && (a + b)[1..] == a[1..] + b;
      WalkSkipsPlainKey(schema, m, args, a[1..], k, b);
      WalkSameHead(schema, m, args, keys, a + b);
    }
  }

  lemma WalkPlainHead(schema: Schema, m: ModelMeta, args: Value, k: string, b: seq<string>)
    requires !IsRelation(m, k)
    ensures WalkFields(schema, m, args, [k] + b) == WalkFields(schema, m, args, b)
  {
    assert ([k] + b)[0] == k && ([k] + b)[1..] == b;
    assert WalkFields(schema, m, args, [k] + b) == Then(Ok([]), WalkFields(schema, m, args, b));
    match WalkFields(schema, m, args, b)
    case Ok(rest) => assert [] + rest == rest;
    case Err(_) =>
  }

  /** The walk depends on its first key and on the walk of the others. */
  lemma WalkSameHead(schema: Schema, m: ModelMeta, args: Value, x: seq<string>, y: seq<string>)
    requires x != [] && y != [] && x[0] == y[0]
    requires WalkFields(schema, m, args, x[1..]) == WalkFields(schema, m, args, y[1..])
    ensures WalkFields(schema, m, args, x) == WalkFields(schema, m, args, y)
  {
    WalkUnfold(schema, m, args, x);
    WalkUnfold(schema, m, args, y);
  }

  lemma WalkUnfold(schema: Schema, m: ModelMeta, args: Value, keys: seq<string>)
    requires keys != []
    ensures WalkFields(schema, m, args, keys)
         == Then(FieldModels(schema, m, args, keys[0]), WalkFields(schema, m, args, keys[1..]))
  {
  }

  /**
   * At its call site the walk receives the operation name where the arguments belong:
   * a string has no `data` property, so only the written model is reported.
   */
  lemma ShiftedCallInvolvesOnlyModel(schema: Schema, model: string, operation: string)
    ensures InvolvedModels(schema, model, Str(operation)) == Ok([model])
  {
  }

  /** A two-model schema: a user has posts, a post has an author. */
  function UserPostSchema(): Schema {
    [ ModelMeta("User", [FieldMeta("id", Scalar, "Int"), FieldMeta("posts", Object, "Post")]),
      ModelMeta("Post", [FieldMeta("id", Scalar, "Int"), FieldMeta("author", Object, "User")]) ]
  }

  /**
   * A nested create under `data.posts`, walked with the arguments themselves: the
   * relation field is found, but `args.posts` is undefined, so the walk stops there.
   */
  lemma NestedCreateWalk()
    ensures InvolvedModels(UserPostSchema(), "User",
              Obj([ Field("data", Obj([Field("posts", Obj([Field("create", Obj([Field("id", Num(2))]))]))])),
                    Field("where", Obj([Field("id", Num(1))])) ]))
         == Ok(["User", "Post"])
  {
    var args := Obj([ Field("data", Obj([Field("posts", Obj([Field("create", Obj([Field("id", Num(2))]))]))])),
                      Field("where", Obj([Field("id", Num(1))])) ]);
    var user := UserPostSchema()[0];
    assert FindModel(UserPostSchema(), "User") == Some(user);
    NestedCreateKeys(args);
    NestedCreateFields(args);
    DedupPair("User", "Post");
  }

  lemma NestedCreateKeys(args: Value)
    requires args == Obj([ Field("data", Obj([Field("posts", Obj([Field("create", Obj([Field("id", Num(2))]))]))])),
                           Field("where", Obj([Field("id", Num(1))])) ])
    ensures DataKeys(args) == ["posts"] && Member(args, "posts") == None
  {
    var data := Obj([Field("posts", Obj([Field("create", Obj([Field("id", Num(2))]))]))]);
    assert Member(args, "data") == Some(data);
  }

  lemma NestedCreateFields(args: Value)
    requires Member(args, "posts") == None
    ensures WalkFields(UserPostSchema(), UserPostSchema()[0], args, ["posts"]) == Ok(["Post"])
  {
    var schema := UserPostSchema();
    var user := schema[0];
    assert IsRelation(user, "posts") by { assert user.fields[1] in user.fields; }
    assert RelatedModel(user, "posts") == "Post";
    assert WalkFields(schema, user, args, ["posts"][1..]) == Ok([]);
    assert ["Post"] + [] == ["Post"];
    assert ["posts"][0] == "posts";
  }

  lemma DedupPair(a: string, b: string)
    requires a != b
    ensures Dedup([a] + [b]) == [a, b]
  {
    assert ([a] + [b])[..1] == [a];
    assert Dedup([a]) == [a] by { assert [a][..0] == []; }
  }
}

=== FILE: strings.dfy ===
/** String helpers with the meaning of the JavaScript string methods the core calls. */
module Strings {

  import opened Wrappers

  /** `s.startsWith(p)` */
  predicate StartsWith(s: string, p: string) {
    |p| <= |s| && s[..|p|] == p
  }

  /** `s.includes(t)`, written as a recursive scan so that it is executable. */
  predicate Contains(s: string, t: string)
    decreases |s|
  {
    StartsWith(s, t) || (|s| > 0 && Contains(s[1..], t))
  }

  /** Every string contains each of its infixes. */
  lemma {:induction false} ContainsInfix(a: string, t: string, b: string)
    ensures Contains(a + t + b, t)
    decreases |a|
  {
    if a == [] {
      assert (a + t + b)[..|t|] == t;
    } else {
      assert (a + t + b)[1..] == a[1..] + t + b;
      ContainsInfix(a[1..], t, b);
    }
  }

  /** The index of the first occurrence of `c` in `s`, if any (`s.indexOf(c)`). */
  function IndexOf(s: string, c: char): (r: Option<nat>)
    ensures r.Some? ==> r.value < |s| && s[r.value] == c && c !in s[..r.value]
    ensures r.None? ==> c !in s
  {
    if s == [] then None
    else if s[0] == c then Some(0)
    else match IndexOf(s[1..], c)
      case None => None
      case Some(i) => assert s[..i + 1] == [s[0]] + s[1..][..i]; Some(i + 1)
  }

  /** Splitting at a separator that does not occur in the prefix recovers the prefix. */
  lemma IndexOfAfter(a: string, c: char, b: string)
    requires c !in a
    ensures IndexOf(a + [c] + b, c) == Some(|a|)
  {
    assert (a + [c] + b)[|a|] == c;
  }

  /**
   * The strict character (code-point) order on strings. It agrees with the UTF-16
   * code-unit order of JavaScript's default `Array.prototype.sort` inside the Basic
   * Multilingual Plane.
   */
  predicate Less(a: string, b: string) {
    if a == [] then b != []
    else if b == [] then false
    else if a[0] != b[0] then a[0] < b[0]
    else Less(a[1..], b[1..])
  }

  lemma {:induction false} LessAsymmetric(a: string, b: string)
    requires Less(a, b)
    ensures !Less(b, a)
  {
    if a != [] && b != [] && a[0] == b[0] {
      LessAsymmetric(a[1..], b[1..]);
    }
  }

  /** `parts.join(sep)` */
  function Join(parts: seq<string>, sep: string): string {
    if parts == [] then ""
    else if |parts| == 1 then parts[0]
    else parts[0] + sep + Join(parts[1..], sep)
  }

  /** `parts.filter((e) => !!e)` on strings: drops the empty ones. */
  function NonEmpty(parts: seq<string>): (r: seq<string>)
    ensures forall i :: 0 <= i < |r| ==> r[i] != ""
    ensures forall p :: p in parts && p != "" ==> p in r
    ensures forall p :: p in r ==> p in parts
    ensures (forall i :: 0 <= i < |parts| ==> parts[i] != "") ==> r == parts
  {
    if parts == [] then []
    else if parts[0] == "" then NonEmpty(parts[1..])
    else [parts[0]] + NonEmpty(parts[1..])
  }

  /**
   * The filter works piecewise: what survives of `a + b` is what survives of `a`
   * followed by what survives of `b`, in order and with repetitions.
   */
  lemma {:induction false} NonEmptyAppend(a: seq<string>, b: seq<string>)
    ensures NonEmpty(a + b) == NonEmpty(a) + NonEmpty(b)
    decreases |a|
  {
    if a != [] {
      assert (a + b)[0] == a[0] && (a + b)[1..] == a[1..] + b;
      NonEmptyAppend(a[1..], b);
      if a[0] != "" {
        assert [a[0]] + (NonEmpty(a[1..]) + NonEmpty(b)) == [a[0]] + NonEmpty(a[1..]) + NonEmpty(b);
      }
    } else {
      assert a + b == b;
    }
  }

  /** A sequence in which no string occurs twice. */
  predicate NoDuplicates(s: seq<string>) {
    forall i, j :: 0 <= i < j < |s| ==> s[i] != s[j]
  }

  /**
   * The UTF-8 encoding of one character (a Unicode scalar value): one byte below
   * 0x80, else a lead byte followed by continuation bytes of six bits each.
   */
  function Utf8Char(c: char): (r: seq<int>)
    ensures 1 <= |r| <= 4
    ensures forall b :: b in r ==> 0 <= b < 256
    ensures c as int < 0x80 <==> r == [c as int]
  {
    var n := c as int;
    if n < 0x80 then [n]
    else if n < 0x800 then [0xC0 + n / 0x40, 0x80 + n % 0x40]
    else if n < 0x1_0000 then [0xE0 + n / 0x1000, 0x80 + n / 0x40 % 0x40, 0x80 + n % 0x40]
    else [0xF0 + n / 0x4_0000, 0x80 + n / 0x1000 % 0x40, 0x80 + n / 0x40 % 0x40, 0x80 + n % 0x40]
  }

  /** `Buffer.from(t)`: the bytes of the UTF-8 encoding of `t`. */
  function Utf8(t: string): (r: seq<int>)
    ensures forall b :: b in r ==> 0 <= b < 256
    ensures |t| <= |r| <= 4 * |t|
    ensures (forall i :: 0 <= i < |t| ==> t[i] as int < 0x80) ==>
              |r| == |t| && forall i :: 0 <= i < |t| ==> r[i] == t[i] as int
  {
    if t == [] then [] else Utf8Char(t[0]) + Utf8(t[1..])
  }

  /** `t` occurs in `s` at index `i`. */
  predicate OccursAt(s: string, t: string, i: nat) {
    i + |t| <= |s| && s[i..i + |t|] == t
  }

  /** `Contains` finds an actual occurrence. */
  lemma {:induction false} ContainsOccurs(s: string, t: string)
    requires Contains(s, t)
    ensures exists i: nat :: OccursAt(s, t, i)
    decreases |s|
  {
    if StartsWith(s, t) {
      assert OccursAt(s, t, 0);
    } else {
      ContainsOccurs(s[1..], t);
      var i: nat :| OccursAt(s[1..], t, i);
      assert s[1..][i..i + |t|] == s[i + 1..i + 1 + |t|];
      assert OccursAt(s, t, i + 1);
    }
  }
}

=== FILE: values.dfy ===
/**
 * The JavaScript values the core handles, as an immutable tree: JSON-like data plus
 * the four rich leaves the codec knows (Prisma `Decimal`, `bigint`, `Buffer`, `Date`).
 * Numbers are integers; the rich leaves carry their canonical text.
 */
module Values {

  import opened Wrappers
  import opened Numerals
  import opened Strings

  datatype Value =
    | Null
    | Bool(b: bool)
    | Num(n: int)
    | Str(s: string)
    | Decimal(text: string)   // a Prisma Decimal, by its `toString()`
    | BigInt(i: int)
    | Buffer(text: string)    // a Buffer, by its UTF-8 `toString()`
    | Date(iso: string)       // a Date, by its `toISOString()`
    | Arr(items: seq<Value>)
    | Obj(fields: seq<Field>) // an object, its properties in enumeration order

  datatype Field = Field(name: string, value: Value)

  /** What a call evaluates to: a value, `undefined`, or a thrown error. */
  datatype Outcome = Returned(value: Value) | ReturnedUndefined | Threw(error: Error)

  /** Number of nodes of a tree; every property read below returns a strictly smaller tree. */
  function Size(v: Value): nat {
    match v
    case Arr(items) => 1 + ItemsSize(items)
    case Obj(fs) => 1 + FieldsSize(fs)
    case _ => 1
  }

  function ItemsSize(items: seq<Value>): nat {
    if items == [] then 0 else Size(items[0]) + ItemsSize(items[1..])
  }

  function FieldsSize(fs: seq<Field>): nat {
    if fs == [] then 0 else Size(fs[0].value) + FieldsSize(fs[1..])
  }

  /** JavaScript's `typeof v`. */
  function TypeOf(v: Value): string {
    match v
    case Bool(_) => "boolean"
    case Num(_) => "number"
    case Str(_) => "string"
    case BigInt(_) => "bigint"
    case _ => "object"   // null, arrays, plain objects, Decimal, Buffer and Date
  }

  /** The property names `for (const k in v)` enumerates: fields of an object, indices of an array or a string. */
  function ForInKeys(v: Value): (r: seq<string>)
    ensures v.Obj? ==> |r| == |v.fields| && forall i :: 0 <= i < |r| ==> r[i] == v.fields[i].name
    ensures v.Arr? ==> |r| == |v.items| && forall i :: 0 <= i < |r| ==> r[i] == NatToText(i)
    ensures v.Str? ==> |r| == |v.s| && forall i :: 0 <= i < |r| ==> r[i] == NatToText(i)
    ensures !v.Obj? && !v.Arr? && !v.Str? ==> r == []
  {
    match v
    case Obj(fs) => seq(|fs|, i requires 0 <= i < |fs| => fs[i].name)
    case Arr(items) => seq(|items|, i requires 0 <= i => NatToText(i))
    case Str(s) => seq(|s|, i requires 0 <= i => NatToText(i))
    case _ => []
  }

  /** The index keys of an array or a string never repeat. */
  lemma IndexKeysDistinct(v: Value)
    requires v.Arr? || v.Str?
    ensures NoDuplicates(ForInKeys(v))
  {
    var r := ForInKeys(v);
    forall i, j | 0 <= i < j < |r| ensures r[i] != r[j] {
      NatTextInjective(i, j);
    }
  }

  /** `v[key]` when it is a sub-tree of `v`: an own field of an object or an element of an array. */
  function Member(v: Value, key: string): (r: Option<Value>)
    ensures r.Some? ==> Size(r.value) < Size(v)
    ensures v.Obj? && (exists i :: 0 <= i < |v.fields| && v.fields[i].name == key) ==> r.Some?
    ensures v.Obj? && r.Some? ==> exists i :: 0 <= i < |v.fields| && v.fields[i].name == key && v.fields[i].value == r.value
    ensures v.Arr? && r.None? ==> forall i :: 0 <= i < |v.items| ==> NatToText(i) != key
    ensures v.Arr? && r.Some? ==> exists i :: 0 <= i < |v.items| && NatToText(i) == key && v.items[i] == r.value
    ensures !v.Obj? && !v.Arr? ==> r.None?
  {
    match v
    case Obj(fs) => FieldLookup(fs, key)
    case Arr(items) => ItemLookup(items, key)
    case _ => None
  }

  /** The value of the first field named `key`. */
  function FieldLookup(fs: seq<Field>, key: string): (r: Option<Value>)
    ensures r.Some? ==> Size(r.value) < FieldsSize(fs) + 1
    ensures r.Some? <==> exists i :: 0 <= i < |fs| && fs[i].name == key
    ensures r.Some? ==> exists i :: 0 <= i < |fs| && fs[i].name == key && fs[i].value == r.value
  {
    if fs == [] then None
    else if fs[0].name == key then Some(fs[0].value)
    else
      var r := FieldLookup(fs[1..], key);
      assert forall i :: 1 <= i < |fs| ==> fs[i] == fs[1..][i - 1];
      r
  }

  /** The element of `items` whose index has the text `key`. */
  function ItemLookup(items: seq<Value>, key: string): (r: Option<Value>)
    ensures r.Some? ==> Size(r.value) < ItemsSize(items) + 1
    ensures r.None? ==> forall i :: 0 <= i < |items| ==> NatToText(i) != key
    ensures r.Some? ==> exists i :: 0 <= i < |items| && NatToText(i) == key && items[i] == r.value
    decreases |items|
  {
    if items == [] then None
    else
      var n := |items| - 1;
      match ItemLookup(items[..n], key)
      case Some(x) =>
        assert forall i :: 0 <= i < n ==> items[..n][i] == items[i];
        ItemSize(items, x);
        Some(x)
      case None =>
        assert forall i :: 0 <= i < n ==> NatToText(i) != key;
        if NatToText(n) == key then
          assert 0 <= n < |items| && NatToText(n) == key && items[n] == items[n];
          ItemSize(items, items[n]);
          Some(items[n])
        else None
  }

  /** An element is no larger than all elements together. */
  lemma {:induction false} ItemSize(items: seq<Value>, x: Value)
    requires x in items
    ensures Size(x) <= ItemsSize(items)
    decreases |items|
  {
    if items[0] != x {
      ItemSize(items[1..], x);
    }
  }

  /**
   * The property read `v.key` as JavaScript performs it: reading from `null` throws,
   * a property the tree does not hold reads as `undefined` (`None`).
   */
  function GetProperty(v: Value, key: string): (r: Result<Option<Value>>)
    ensures r.Err? <==> v.Null?
    ensures r.Ok? ==> r.value == Member(v, key)
  {
    if v.Null? then Err(TypeError("Cannot read properties of null (reading '" + key + "')"))
    else Ok(Member(v, key))
  }
}

=== FILE: wrappers.dfy ===
/** Small failure-compatible wrappers shared by every module of the model. */
module Wrappers {

  /** An optional value: `None` stands for JavaScript's `undefined`. */
  datatype Option<+T> = None | Some(value: T) {
    predicate IsFailure() { None? }

    function PropagateFailure<U>(): Option<U>
      requires None?
    {
      None
    }

    function Extract(): T
      requires Some?
    {
      value
    }

    function GetOr(default: T): T {
      match this
      case Some(v) => v
      case None => default
    }
  }

  /** The errors a JavaScript call in the core can throw. */
  datatype Error =
    | TypeError(message: string)    // property read on null/undefined
    | SyntaxError(message: string)  // BigInt() of a malformed literal
    | QueryFailed(reason: string)   // the underlying data-access operation rejected

  /** A value or the error a call threw. */
  datatype Result<+R> = Ok(value: R) | Err(error: Error) {
    predicate IsFailure() { Err? }

    function PropagateFailure<U>(): Result<U>
      requires Err?
    {
      Err(error)
    }

    function Extract(): R
      requires Ok?
    {
      value
    }
  }
}
